=== FILE: README.md ===
# B-tree lookup state machine and replication wire layouts

This project models two pieces of a key-value store in Dafny and proves
properties of them.

**The resumable B-tree lookup** (`btree_fsm_impl.hpp`). A lookup is an
object with the fields `key`, `state`, `node_id`, `node`, `op_result` and
`value`. It walks superblock, root, internal nodes and leaf. Each step makes
one non-blocking `acquire` on the block cache and stops with "incomplete"
when the page is not cached yet. `do_transition` runs the steps in order on
every wake-up. Its loop over internal nodes ends because every child is
lower in the tree: the cache carries a ghost height per page.

The model is imperative, as the source is:

- `BtreeLookup.BtreeFsm` is a class with those fields. Its step methods
  update them in place.
- `BlockCache.Cache` is the block cache as the lookup sees it. It keeps a
  page map and the set of pages whose `acquire` succeeds now. It also keeps
  ghost records: the multiset of pinned pages, the most pages ever pinned at
  once, a log of every acquire and release, and a count of dirty releases.
- Internal and leaf node lookups are uninterpreted functions stored in the
  pages.

The object invariant `BtreeFsm.Valid` says three things. The cache's pins
are exactly the page the lookup holds. At most one page has ever been pinned
at a time. The node being fetched leads to the same leaf as the root does.

**The replication wire layouts** (`net_structs.hpp`). These are packed
structs with no padding. Some are followed by a trailing `key[]` or
`keyvalue[]` region. A layout is a list of field widths. Structs are encoded
and decoded by one generic serialiser over that list.

- Multi-byte fields are little-endian. The header file does not fix the
  byte order, so this model chooses it.
- The widths of `cas_t`, `repli_timestamp`, `mcflags_t` and `exptime_t` are
  declared elsewhere. They are the parameter `Widths` of every layout.

Three things about the code shape the model:

- There is no terminal "complete" state. Completion is only the
  `btree_fsm_complete` return value.
- After a child acquire misses, `node_id` holds the child's id, but no step
  retries that acquire: the node step asserts `node` instead.
- After a null-root completion the state stays at the root step, and a further
  call completes as not found again without any cache call. After a leaf
  completion the state stays at the node step with `node` pointing at the page
  just released, and a further call would release it again.

The re-entry problem the TODO at `btree_fsm_impl.hpp` lines 87-89 admits is
stated as a precondition, `BtreeFsm.CanResume`, which `DoTransition` requires of a
disk wake-up; an event of the wrong kind fails the check from any state. After a
child acquire misses, `node` is NULL while the state is still the node step,
so `CanResume` is false. `DoTransition` states where a wake-up that must wait
stops. A superblock miss or a root miss leaves the lookup at that step,
holding nothing, and it can be resumed there. A child miss leaves it in the
node step with `node` NULL, and then `CanResume` is false.
`LookupScenarios.ColdLeaf` shows a lookup reaching that state through
`DoTransition`.

## Model

| member | source | states |
|---|---|---|
| BtreeLookup.BtreeFsm.InitLookup | src/include/btree/btree_fsm_impl.hpp:7-11 | stores the key and sets the state to acquiring-superblock; only those two fields may change |
| BtreeLookup.BtreeFsm.GetRootId | src/include/btree/btree_fsm_impl.hpp:96-106 | returns 1 exactly when the superblock can be acquired. On a miss: returns 0, keeps the root id, and the log shows one missed acquire and no release. On a hit: copies the superblock's root id, and the log shows one acquire followed by one clean release of the superblock. Pins are unchanged either way |
| BtreeLookup.BtreeFsm.DoLookupAcquiringSuperblock | src/include/btree/btree_fsm_impl.hpp:13-23 | never completes. On a miss: incomplete, with the state and node id unchanged. On a hit: ok, moving to acquiring-root with the node id set to the tree's root |
| BtreeLookup.BtreeFsm.DoLookupAcquiringRoot | src/include/btree/btree_fsm_impl.hpp:25-43 | null root: completes as not found, with no cache call and nothing pinned. Otherwise exactly one acquire of the root. On a miss: incomplete, state unchanged, `node` NULL. On a hit: ok, moving to acquiring-node with the root pinned as `node` |
| BtreeLookup.BtreeFsm.DoLookupAcquiringNode | src/include/btree/btree_fsm_impl.hpp:45-66 | requires a pinned `node` in the node state. At an internal node: releases the node, clean, before acquiring the child for the key; the child is the new node id and is lower in the tree; ok exactly when the child is cached, otherwise `node` is NULL. At a leaf: one clean release, then completes, with found exactly when the leaf's code is 1 and the leaf's value stored. At most one page is ever pinned. The step keeps the answer the walk will reach |
| BtreeLookup.BtreeFsm.StepToChild | src/include/btree/btree_fsm_impl.hpp:50-59 | the internal-node branch: the log gains a clean release of the node and then an acquire of the child for the key. Ok exactly when the child is cached, and then the child is pinned and lower in the tree. The path from the old node is cached exactly when the path from the child is |
| BtreeLookup.BtreeFsm.ReadLeaf | src/include/btree/btree_fsm_impl.hpp:60-65 | the leaf branch: completes with a single clean release of the leaf and no page pinned. Found exactly when the leaf returns 1, with the leaf's value. The fields report what the tree holds for the key |
| BtreeLookup.BtreeFsm.AcquireNodes | src/include/btree/btree_fsm_impl.hpp:82-85 | the node loop ends, holding no page, either complete or incomplete. It completes exactly when every page from the held node down to the leaf is cached. Its cache calls are exactly `NodeCalls` from the held node: nothing is acquired or released after the leaf answers or after a child miss |
| BtreeLookup.BtreeFsm.DoTransition | src/include/btree/btree_fsm_impl.hpp:68-94 | an event that is neither absent nor a disk event fails the check and changes nothing; that is the only failure. The result is never ok. The state never moves back, and no release is dirty. On completion no page is held and the result fields are the tree's answer. A lookup started at the superblock completes in one call exactly when the superblock and every page on its path are cached. One resumed at the root completes exactly when the root is null or its path is cached. One resumed in the node state completes exactly when the path from its node is cached. A wake-up that must wait stops at the step whose acquire missed. After a superblock miss it is still at the superblock step with the node id unchanged, and the log has one missed acquire. After a root miss it is at the root step with the node id the root and `node` NULL, and the log has, after the superblock's acquire and release if it started there, one missed acquire of the root. After a child miss it is in the node state with `node` NULL and no page held, so `CanResume` is false. A null root leaves the lookup at the root step, after only the superblock's acquire and release or, resumed there, with no cache call. A lookup resumed at the root or node step makes no call on the superblock. Once the root is acquired, the rest of the log is exactly `NodeCalls` from the root, or, resumed in the node state, from the held node. Only a disk wake-up needs `CanResume`; an event of the wrong kind is allowed in any state |
| BtreeLookup.BtreeFsm.ResumeWalk | src/include/btree/btree_fsm_impl.hpp:78-85 | the root step, if the lookup is there, then node steps for as long as each says go on. It ends complete or incomplete. From the root it completes exactly when the root is null or its path is cached, and from a node exactly when that node's path is. It stops at the step whose acquire missed, and no call it makes concerns the superblock. Its log is, after the root's acquire if it starts there, exactly `NodeCalls` from the root or the held node |
| BtreeLookup.BtreeFsm.StartWalk | src/include/btree/btree_fsm_impl.hpp:74-85 | from the superblock step: completes exactly when the superblock and every page on the path are cached. Each stop point is stated with its whole log: a superblock miss, a null root, a root miss, and a root hit followed by `NodeCalls` from the root |
| BtreeLookup.Accepted | src/include/btree/btree_fsm_impl.hpp:71 | a wake-up is handled exactly when it carries no event or a disk event |
| BtreeLookup.StateRank | src/include/btree/btree_fsm_impl.hpp:74-85 | the order the steps run in, superblock, root, then node, against which the driver's state never moves back |
| BtreeLookup.BtreeFsm.CanResume | src/include/btree/btree_fsm_impl.hpp:46-48 | a further wake-up is safe only if, in the node state, `node` is a page the lookup holds; this is the precondition the node step's `assert(node)` and its release need |
| BlockCache.Cache.IsBlockIdNull | src/include/btree/btree_fsm_impl.hpp:30 | an id denotes "no node" exactly when it is the cache's null id; a well-formed cache keeps that id apart from the superblock and out of its pages |
| BlockCache.Cache.Root | src/include/btree/btree_fsm_impl.hpp:97-103 | the root id the superblock page records, which `get_root_id` copies out |
| BlockCache.Cache.Descend | src/include/btree/btree_fsm_impl.hpp:45-66 | the reference walk the lookup is proved against: from a page, follow each internal node's child for the key down to a leaf and give that leaf's answer, or none if a page is missing |
| BlockCache.Cache.Acquire | src/include/btree/btree_fsm_impl.hpp:36-38 | returns a page exactly when it is cached; a hit pins it once and raises the high-water mark, a miss pins nothing; every call is logged |
| BlockCache.Cache.Release | src/include/btree/btree_fsm_impl.hpp:104 | may only release a pinned page; unpins it once, logs the call and counts a dirty release |
| BlockCache.Cache.ChildStep | src/include/btree/btree_fsm_impl.hpp:51-54 | the child of an internal node is never the superblock, is lower in the tree, and leads to the same leaf; the node's path is cached exactly when the node and the child's path are |
| BlockCache.Cache.NodeCallsShape | src/include/btree/btree_fsm_impl.hpp:50-63 | the node calls from a held page start with its clean release. Every acquire that hits is followed at once by the clean release of that page, so each page on the path is acquired once and released once. The calls end with a release, the leaf's, exactly when the path is cached, and otherwise with the acquire that missed |
| BlockCache.Cache.NodeCallsChild | src/include/btree/btree_fsm_impl.hpp:50-58 | at an internal node, the release and the child's acquire, followed, if the acquire hits, by the node calls from the child, are the node's node calls |
| BlockCache.Cache.NodeCallsLeaf | src/include/btree/btree_fsm_impl.hpp:60-63 | at a leaf, the node calls are the leaf's single clean release |
| BlockCache.Cache.LeafStep | src/include/btree/btree_fsm_impl.hpp:61 | a walk ends at a leaf with the leaf's own answer; a leaf's path is the leaf alone |
| BlockCache.Cache.FetchCompleted | src/include/btree/btree_fsm_impl.hpp:72 | a completed fetch adds the page to the cached set and changes nothing else |
| LookupScenarios.EmptyTree | src/include/btree/btree_fsm_impl.hpp:29-33 | a lookup in an empty tree completes on the first wake-up, as not found, holding no page, after only the superblock's acquire and release and no node acquire. A further wake-up completes again without any cache call |
| LookupScenarios.SingleLeaf | src/include/btree/btree_fsm_impl.hpp:60-65 | a cached root that is a leaf answers found, with the leaf's value, in one call, never pinning two pages. The whole log is the superblock's acquire and release, then the root's |
| LookupScenarios.WarmTwoLevel | src/include/btree/btree_fsm_impl.hpp:83-85 | with every page cached, one call walks root to leaf and answers found with the leaf's value. The whole log is one acquire and one clean release of each of the superblock, the root and the leaf, in that order, and nothing after the leaf's release |
| LookupScenarios.ColdSuperblock | src/include/btree/btree_fsm_impl.hpp:17-18 | with nothing cached, the first wake-up stops incomplete at the superblock step, after one missed acquire, holding nothing, and can be resumed |
| LookupScenarios.ColdLeaf | src/include/btree/btree_fsm_impl.hpp:54-58 | when the leaf is not cached, the first wake-up stops incomplete in the node state, with `node` NULL and no page held. It cannot be resumed even after the leaf's fetch completes. The whole log ends with the leaf's missed acquire |
| LookupScenarios.WrongEventWhenStuck | src/include/btree/btree_fsm_impl.hpp:90-92 | a lookup that cannot be resumed, after a child miss, still fails the check on a non-disk event, and the log stays as it was |
| LookupScenarios.RootMiss | src/include/btree/btree_fsm_impl.hpp:35-38 | with only the superblock cached, the first wake-up acquires and releases the superblock, misses the root, and stops incomplete at the root step holding nothing, ready to be resumed |
| LookupScenarios.ColdRoot | src/include/btree/btree_fsm_impl.hpp:37-38 | when the root is not cached, the first wake-up reads the superblock, misses the root and stops incomplete in the root state. Once the pages are fetched, the next disk wake-up resumes there, without touching the superblock again, and answers found. After the first three calls the log is one acquire and one clean release of the root, then of the leaf |
| LookupScenarios.WrongEvent | src/include/btree/btree_fsm_impl.hpp:90-92 | a non-disk event fails the check, leaving the lookup and the cache log untouched |
| NetStructs.AspectTag | src/replication/net_structs.hpp:11 | each multipart aspect's tag byte, `SMALL` 0x81 to `LAST` 0x84 |
| NetStructs.ParseAspect | src/replication/net_structs.hpp:11 | a byte is a multipart aspect exactly when it is 0x81..0x84, and it reads back to that tag |
| NetStructs.AspectTagRoundTrip | src/replication/net_structs.hpp:11 | parsing the tag of an aspect gives back that aspect |
| NetStructs.CodeOf | src/replication/net_structs.hpp:13-16 | every message code is at most 14, and it is the code's position in the declaration |
| NetStructs.ParseMessageCode | src/replication/net_structs.hpp:13-16 | a byte is a message code exactly when it is at most 14, and it reads back to that number |
| NetStructs.MessageCodeRoundTrip | src/replication/net_structs.hpp:13-16 | parsing the number of a code gives back that code |
| NetStructs.Layout | src/replication/net_structs.hpp:18-150 | the byte width of every fixed field of every struct, in declaration order, with one width per declared field |
| NetStructs.FixedFields | src/replication/net_structs.hpp:18-150 | the values of a struct's fixed fields in declaration order, with `key_size` and `value_size` given by the lengths of the key and value |
| NetStructs.Build | src/replication/net_structs.hpp:18-150 | puts a struct of the requested type back together from its fixed fields in declaration order and its key and value. The size fields are not stored but taken from the regions |
| NetStructs.Encode | src/replication/net_structs.hpp:68-73 | the bytes of a struct are exactly its packed fixed part plus its key and value |
| NetStructs.Decode | src/replication/net_structs.hpp:68-73 | whatever decodes as type `t` is a struct of type `t` |
| NetStructs.EncodeThenDecode | src/replication/net_structs.hpp:77-88 | decoding the bytes of any well-formed struct gives back that struct |
| NetStructs.DecodeThenEncode | src/replication/net_structs.hpp:90-98 | whatever decodes is well-formed, of the requested type, and encodes back to exactly the input bytes |
| NetStructs.Split | src/replication/net_structs.hpp:122-124 | a message splits into fields that fit their widths and key and value regions as long as the recorded sizes. It is truncated exactly when it is shorter than the fixed part |
| NetStructs.JoinThenSplit | src/replication/net_structs.hpp:122-124 | fixed fields followed by a key and value of the recorded sizes split back into those three parts |
| NetStructs.SplitThenJoin | src/replication/net_structs.hpp:133-135 | a message that splits is its fixed part, then its key, then its value |
| NetStructs.SizeFieldsRecordLengths | src/replication/net_structs.hpp:82-83 | the `key_size` and `value_size` fields hold the lengths of the key and value |
| NetStructs.KeySizeIndex | src/replication/net_structs.hpp:71 | `key_size` is a 2-byte field of every struct that has a key |
| NetStructs.ValueSizeIndex | src/replication/net_structs.hpp:83 | `value_size` is a 4-byte field, and only structs with a key have one |
| NetStructs.Sizeof | src/replication/net_structs.hpp:18-150 | the `sizeof` of each packed struct, written out as the sum of its members' sizes |
| NetStructs.SizeofMatchesLayout | src/replication/net_structs.hpp:18-150 | the packed size of every struct's layout equals its `sizeof` written out from the declaration, so the widths agree with the declared members' sizes |
| NetStructs.HeaderBytes | src/replication/net_structs.hpp:35-39 | `net_header_t` is 4 bytes: the aspect, the msgcode, then msgsize least significant byte first |
| NetStructs.HeaderFieldBytes | src/replication/net_structs.hpp:36-38 | the three header fields fit their widths and pack to those 4 bytes |
| NetStructs.MultipartHeaderExtendsHeader | src/replication/net_structs.hpp:41-46 | `net_multipart_header_t` is the 4 bytes of `net_header_t` followed by the 4 bytes of `ident` |
| NetStructs.HelloBytes | src/replication/net_structs.hpp:23-26 | `net_hello_t` is the 16 magic bytes then the 4-byte version |
| NetStructs.IntroduceBytes | src/replication/net_structs.hpp:28-33 | `net_introduce_t` is the 4-byte creation timestamp then the 4-byte `other_id` |
| NetStructs.KeyFollowsKeySize | src/replication/net_structs.hpp:138-142 | in the key-only structs `key_size` is the last fixed field, the key starts right after it, and the length is the fixed part plus `key_size` |
| NetStructs.LastFieldThenKey | src/replication/net_structs.hpp:144-150 | when the size field is the last fixed field, it ends the fixed part, and the trailing bytes follow it directly |
| NetStructs.KeyOnlyShape | src/replication/net_structs.hpp:68-73 | the key-only structs keep `key_size` last and have no value |
| NetStructs.KeyValueRegions | src/replication/net_structs.hpp:116-125 | in the key-and-value structs both sizes sit at their offsets, the first `key_size` trailing bytes are the key and the rest are the value |
| NetStructs.IncrDecrIdentical | src/replication/net_structs.hpp:100-114 | `net_incr_t` and `net_decr_t` have the same layout; the bytes of an incr decode as the decr with the same fields |
| NetStructs.IncrOffsets | src/replication/net_structs.hpp:100-105 | in `net_incr_t` the amount starts after the timestamp and cas, `key_size` 8 bytes later, and the fixed part is 10 bytes longer than those two |
| NetStructs.PaddedPayloadsFillMultipartHeader | src/replication/net_structs.hpp:56-60 | a header followed by a `net_backfill_delete_everything_t` or a `net_backfill_delete_t` is at least as long as `net_multipart_header_t` |
| NetStructs.BuildFixedFields | src/replication/net_structs.hpp:77-88 | rebuilding a struct from its own fields, key and value gives the struct back |
| NetStructs.FixedFieldsOfBuild | src/replication/net_structs.hpp:90-98 | a struct built from fields that fit, with a key and value of the recorded sizes, has exactly those fields, key and value |
| PackedFields.DecodeFields | src/replication/net_structs.hpp:35-39 | reads a packed fixed part field by field; every value it gives fits its field's width |
| PackedFields.EncodeFields | src/replication/net_structs.hpp:35-39 | packed fields encode to exactly the layout's total width |
| PackedFields.DecodeEncodeFields | src/replication/net_structs.hpp:35-39 | decoding packed fields gives back the values |
| PackedFields.EncodeDecodeFields | src/replication/net_structs.hpp:35-39 | every byte string of the layout's size is the encoding of what it decodes to |
| PackedFields.FieldAt | src/replication/net_structs.hpp:41-46 | field i occupies exactly the bytes from its offset, the sum of the earlier widths, for its width |
| PackedFields.EncodeFieldsAppend | src/replication/net_structs.hpp:41-46 | concatenating two layouts concatenates their encodings |
| PackedFields.OffsetNext | src/replication/net_structs.hpp:100-106 | each field's offset is the previous offset plus that field's width, within the total size |
| PackedFields.EncodeByteFields | src/replication/net_structs.hpp:24 | a run of one-byte fields encodes to the bytes themselves |
| LittleEndian.EncodeUint | src/replication/net_structs.hpp:35-39 | a multi-byte field as exactly its width in bytes, least significant byte first |
| LittleEndian.DecodeUint | src/replication/net_structs.hpp:35-39 | the unsigned value of a little-endian byte string, always below 256 to the power of its length |
| LittleEndian.DecodeEncodeUint | src/replication/net_structs.hpp:38 | decoding an n-byte little-endian encoding gives back the value |
| LittleEndian.EncodeDecodeUint | src/replication/net_structs.hpp:36-38 | every n-byte string is the encoding of the value it decodes to |
| LittleEndian.EncodeUint16 | src/replication/net_structs.hpp:38 | a 2-byte field is its low byte then its high byte |

## Left out

- Block cache internals are not modelled: eviction, allocation, disk I/O, and what `netfsm` does on a wake-up. Whether an `acquire` succeeds is the set of cached pages, which grows only through `FetchCompleted`.
- Event plumbing is not modelled. An event is only its type, or absent. The "update the cache with the event" TODO is the separate `FetchCompleted` call.
- The `check` failure is modelled as the outcome `CheckFailed`, not as a process abort. The `assert`s on the state and on `node` are preconditions.
- A missed `acquire` is assumed to hold no pin and to need no release. The model's cache therefore pins only on a hit. If the real cache counted the missed call, each retry of the superblock or root step would acquire twice but release once. The model does not capture that case. It is one reading of the "acquire twice, but release only once" TODO at `btree_fsm_impl.hpp` lines 87-89. The model shows the other reading, the NULL `node` after a child miss, through `CanResume`.
- Concurrency and sharing one cache among several lookups are not modelled. The cache has a single owner.
- The `memcpy` of the root id is modelled as reading the superblock page's root-id field, not as reinterpreting bytes.
- The binary layouts of internal and leaf nodes and the bodies of their `lookup`s are not modelled. They are uninterpreted functions of the page.
- The leaf's `lookup` is assumed to write `value` on every call, found or not. Its body is not part of this model, and it may leave `value` alone on a miss. `ReadLeaf` and `ReportsTree` therefore store the leaf's value even for a not-found answer.
- Keys, values and block ids are unbounded integers. The widths of `int` and `block_id_t` are not modelled.
- BtreeLookup.BtreeFsm.DoTransition: a disk wake-up after a leaf completion or a child miss is not covered. The code would act, in the node state, on a page it no longer holds, and `CanResume` rules that call out. A call after a null-root completion is covered, and so is an event of the wrong kind in any state.
- BtreeLookup.BtreeFsm.StepToChild and BtreeLookup.BtreeFsm.ReadLeaf are the two branches of `do_lookup_acquiring_node`, kept as separate methods to keep each proof small. `AcquireNodes` is the `while` loop of `do_transition`, separated the same way. `ResumeWalk` is the root step and that loop. `StartWalk` is the superblock step, followed by `ResumeWalk` when it says go on. `DoTransition` calls `StartWalk` in the superblock state and `ResumeWalk` otherwise, so the root step and the loop run exactly when the source's own `res == btree_transition_ok` tests would run them.
- The byte order of multi-byte fields is not fixed by the header file; this model fixes little-endian.
- The widths of `cas_t`, `repli_timestamp`, `mcflags_t` and `exptime_t` are declared outside the structure file and are parameters here.
- A value spanning several messages, and multipart reassembly, are not modelled. `Decode` reads one complete struct with its whole key and value.
- Dispatch by message code is not modelled.
- `char hello_magic[16]` is modelled as 16 unsigned bytes; the signedness of `char` plays no part in the layout.
- NetStructs.IncrOffsets: states the `net_incr_t` offsets on the layout rather than as byte slices of a concrete encoding; `KeyFollowsKeySize` covers the byte-level placement of `key_size` and the key.

=== FILE: block_cache.dfy ===
/**
  The block cache as the lookup state machine sees it: a keyed page store
  with a non-blocking `acquire`, a pinned-page `release`, the superblock's
  id and a null-id test. Eviction, allocation and disk I/O are not modelled:
  whether a page can be acquired right now is the set `available`, which
  only grows when a fetch completes.
*/
module BlockCache {
  import opened Options

  type BlockId = int
  type Key = int
  type Value = int

  /** What `leaf_node_t::lookup(key, &value)` gives back: its return code and the value it stores. */
  datatype LeafAnswer = LeafAnswer(code: int, value: Value)

  /**
    A page's contents. The internal and leaf node lookups are left
    uninterpreted: each node carries them as a function of the key.
  */
  datatype Page =
    | Superblock(rootId: BlockId)                // the bytes `get_root_id` copies out
    | Internal(childFor: Key -> BlockId)         // internal_node_t::lookup
    | Leaf(lookup: Key -> LeafAnswer)            // leaf_node_t::lookup

  /** One call the cache received, in order. */
  datatype CacheCall =
    | AcquireCall(id: BlockId, hit: bool)
    | ReleaseCall(id: BlockId, dirty: bool)

  class Cache {
    const superblockId: BlockId
    const nullId: BlockId
    const pages: map<BlockId, Page>
    /** A height for every page: an internal node's children are strictly lower. */
    ghost const rank: map<BlockId, nat>

    /** Pages whose `acquire` succeeds right now. */
    var available: set<BlockId>
    /** One entry per successful acquire not yet released. */
    ghost var pins: multiset<BlockId>
    /** The most pages ever pinned at once. */
    ghost var peak: nat
    ghost var log: seq<CacheCall>
    /** How many releases so far marked their page dirty. */
    ghost var dirtyReleases: nat

    /** Every internal node's child for `k` is a proper node, lower in the tree. */
    ghost predicate ChildBelow(id: BlockId, k: Key)
    {
      id in pages && pages[id].Internal? ==>
        var child := pages[id].childFor(k);
        child != superblockId &&
        (child in pages ==> id in rank && child in rank && rank[child] < rank[id])
    }

    /** The tree shape the cache holds: a superblock naming the root, then finitely deep nodes. */
    ghost predicate WellFormed()
    {
      superblockId in pages && pages[superblockId].Superblock? &&
      superblockId != nullId && nullId !in pages &&
      pages[superblockId].rootId != superblockId &&
      pages.Keys <= rank.Keys &&
      (forall id :: id in pages && id != superblockId ==> !pages[id].Superblock?) &&
      (forall id, k :: ChildBelow(id, k))
    }

    ghost predicate Valid()
      reads this
    {
      WellFormed() && available <= pages.Keys && |pins| <= peak
    }

    constructor (superblockId: BlockId, nullId: BlockId, pages: map<BlockId, Page>,
                 ghost rank: map<BlockId, nat>, available: set<BlockId>)
      requires available <= pages.Keys
      ensures this.superblockId == superblockId && this.nullId == nullId
      ensures this.pages == pages && this.rank == rank && this.available == available
      ensures pins == multiset{} && peak == 0 && log == [] && dirtyReleases == 0
    {
      this.superblockId := superblockId;
      this.nullId := nullId;
      this.pages := pages;
      this.rank := rank;
      this.available := available;
      pins := multiset{};
      peak := 0;
      log := [];
      dirtyReleases := 0;
    }

    /** `after` extends the log `before` with calls none of which concerns the superblock. */
    ghost predicate SuperblockUntouched(before: seq<CacheCall>, after: seq<CacheCall>)
    {
      |before| <= |after| && after[..|before|] == before &&
      forall i :: |before| <= i < |after| ==> after[i].id != superblockId
    }

    lemma SuperblockUntouchedRefl(a: seq<CacheCall>)
      ensures SuperblockUntouched(a, a)
    {
      assert a[..|a|] == a;
    }

    lemma SuperblockUntouchedTrans(a: seq<CacheCall>, b: seq<CacheCall>, c: seq<CacheCall>)
      requires SuperblockUntouched(a, b) && SuperblockUntouched(b, c)
      ensures SuperblockUntouched(a, c)
    {
      assert c[..|a|] == c[..|b|][..|a|];
    }

    /** `is_block_id_null`: the id that denotes "no node". */
    predicate IsBlockIdNull(id: BlockId)
    {
      id == nullId
    }

    /** The root id the superblock records. */
    function Root(): BlockId
      requires WellFormed()
    {
      pages[superblockId].rootId
    }

    /**
      Non-blocking acquire: a pinned page if it is available, otherwise NULL
      (the fetch is left to complete later).
    */
    method Acquire(id: BlockId) returns (p: Option<Page>)
      requires Valid()
      modifies this`pins, this`peak, this`log
      ensures Valid()
      ensures p.Some? <==> id in available
      ensures p.Some? ==> p.value == pages[id] && pins == old(pins) + multiset{id} &&
                          peak == if |pins| > old(peak) then |pins| else old(peak)
      ensures p.None? ==> pins == old(pins) && peak == old(peak)
      ensures log == old(log) + [AcquireCall(id, p.Some?)]
    {
      if id in available {
        p := Some(pages[id]);
        pins := pins + multiset{id};
        if |pins| > peak {
          peak := |pins|;
        }
      } else {
        p := None;
      }
      log := log + [AcquireCall(id, p.Some?)];
    }

    /** Unpins one previously acquired page; releasing a page that is not pinned is not allowed. */
    method Release(id: BlockId, dirty: bool)
      requires Valid() && id in pins
      modifies this`pins, this`log, this`dirtyReleases
      ensures Valid()
      ensures pins == old(pins) - multiset{id}
      ensures log == old(log) + [ReleaseCall(id, dirty)]
      ensures dirtyReleases == old(dirtyReleases) + if dirty then 1 else 0
    {
      pins := pins - multiset{id};
      log := log + [ReleaseCall(id, dirty)];
      if dirty {
        dirtyReleases := dirtyReleases + 1;
      }
    }

    /** A fetch finished: the page can now be acquired without waiting. */
    method FetchCompleted(id: BlockId)
      requires Valid() && id in pages
      modifies this`available
      ensures Valid()
      ensures available == old(available) + {id}
    {
      available := available + {id};
    }

    /**
      What a lookup of `k` starting at page `id` finds: the answer of the leaf
      it reaches, or None if the walk meets a page the cache does not hold.
    */
    ghost function Descend(id: BlockId, k: Key): Option<LeafAnswer>
      requires WellFormed()
      decreases if id in pages then rank[id] + 1 else 0
    {
      if id !in pages then None
      else match pages[id]
        case Leaf(lookup) => Some(lookup(k))
        case Internal(childFor) =>
          assert ChildBelow(id, k);
          Descend(childFor(k), k)
        case Superblock(_) => None
    }

    /** Every page on the way from `id` to the leaf for `k` can be acquired right now. */
    ghost predicate PathCached(id: BlockId, k: Key)
      requires WellFormed()
      reads this`available
      decreases if id in pages then rank[id] + 1 else 0
    {
      id in available && id in pages &&
      (pages[id].Internal? ==> (assert ChildBelow(id, k); PathCached(pages[id].childFor(k), k)))
    }

    /** The superblock and every page on the way to the leaf for `k` can be acquired right now. */
    ghost predicate LookupCached(k: Key)
      requires WellFormed()
      reads this`available
    {
      superblockId in available && (IsBlockIdNull(Root()) || PathCached(Root(), k))
    }

    /**
      One step down from an internal node: the child for `k` is a proper node
      below it, the walk from the child ends where the walk from the node
      does, and the node's path is cached exactly when the node is and the
      child's path is.
    */
    lemma ChildStep(id: BlockId, k: Key)
      requires WellFormed() && id in pages && pages[id].Internal?
      ensures var child := pages[id].childFor(k);
        child != superblockId && (child in pages ==> rank[child] < rank[id]) &&
        Descend(child, k) == Descend(id, k) &&
        (PathCached(id, k) <==> id in available && PathCached(child, k))
    {
      assert ChildBelow(id, k);
    }

    /**
      The cache calls the node steps make from a page `id` the lookup holds:
      release it, clean; at an internal node then acquire the child for `k`,
      and go on from the child when that acquire hits.
    */
    ghost function NodeCalls(id: BlockId, k: Key): seq<CacheCall>
      requires WellFormed()
      reads this`available
      decreases if id in pages then rank[id] + 1 else 0
    {
      if id !in pages || pages[id].Superblock? then []
      else if pages[id].Leaf? then [ReleaseCall(id, false)]
      else
        assert ChildBelow(id, k);
        var child := pages[id].childFor(k);
        [ReleaseCall(id, false), AcquireCall(child, child in available)] +
        (if child in available then NodeCalls(child, k) else [])
    }

    /**
      A node step at an internal node appends the node's release and the
      child's acquire to the log; the rest of the node calls go on from the
      child if that acquire hits.
    */
    lemma NodeCallsChild(id: BlockId, k: Key, before: seq<CacheCall>)
      requires WellFormed() && id in pages && pages[id].Internal?
      ensures var child := pages[id].childFor(k);
        var after := before + [ReleaseCall(id, false), AcquireCall(child, child in available)];
        (child in available ==> after + NodeCalls(child, k) == before + NodeCalls(id, k)) &&
        (child !in available ==> after == before + NodeCalls(id, k))
    {
    }

    /** A node step at a leaf appends all of the leaf's node calls: its release. */
    lemma NodeCallsLeaf(id: BlockId, k: Key, before: seq<CacheCall>)
      requires WellFormed() && id in pages && pages[id].Leaf?
      ensures before + [ReleaseCall(id, false)] == before + NodeCalls(id, k)
    {
    }

    /**
      The node steps from a held page start by releasing it; every acquire
      that hits is followed at once by the release of that page, so each page
      on the path is acquired once and released once; and the calls end with
      a release, the leaf's, exactly when the path is cached, and otherwise
      with the acquire that missed.
    */
    lemma {:induction false} NodeCallsShape(id: BlockId, k: Key)
      requires WellFormed() && available <= pages.Keys && id in available && !pages[id].Superblock?
      ensures var calls := NodeCalls(id, k);
        |calls| >= 1 && calls[0] == ReleaseCall(id, false) &&
        (calls[|calls| - 1].ReleaseCall? <==> PathCached(id, k)) &&
        (!PathCached(id, k) ==> calls[|calls| - 1].AcquireCall? && !calls[|calls| - 1].hit) &&
        forall i :: 0 <= i < |calls| && calls[i].AcquireCall? && calls[i].hit ==>
          i + 1 < |calls| && calls[i + 1] == ReleaseCall(calls[i].id, false)
      decreases rank[id]
    {
      if pages[id].Internal? {
        ChildStep(id, k);
        var child := pages[id].childFor(k);
        var calls := NodeCalls(id, k);
        if child in available {
          NodeCallsShape(child, k);
          var rest := NodeCalls(child, k);
          assert calls == [ReleaseCall(id, false), AcquireCall(child, true)] + rest;
          forall i | 0 <= i < |calls| && calls[i].AcquireCall? && calls[i].hit
            ensures i + 1 < |calls| && calls[i + 1] == ReleaseCall(calls[i].id, false)
          {
            if i >= 2 {
              assert calls[i] == rest[i - 2];
              assert calls[i + 1] == rest[i - 1];
            }
          }
        }
      } else {
        LeafStep(id, k);
      }
    }

    /** At a leaf the walk ends with the leaf's own answer, and its path is the leaf alone. */
    lemma LeafStep(id: BlockId, k: Key)
      requires WellFormed() && id in pages && pages[id].Leaf?
      ensures Descend(id, k) == Some(pages[id].lookup(k))
      ensures PathCached(id, k) <==> id in available
    {
    }
  }
}

=== FILE: btree_lookup.dfy ===
/**
  The resumable B-tree lookup: a state machine that walks superblock, root,
  internal nodes and leaf, one non-blocking `acquire` per step, driven by
  `DoTransition` on every wake-up.

  The model follows the code as written. There is no terminal state:
  completion is only the `BtreeFsmComplete` return value. After a child
  acquire misses, `node` is NULL while the state is still
  `LookupAcquiringNode`, and after a leaf completes, `node` still points at
  the page it has just released; in both cases a further `DoTransition`
  would act on a page it does not hold. `CanResume()` is the precondition
  that rules these re-entries out, and `DoTransition` states exactly when it
  is lost.
*/
module BtreeLookup {
  import opened Options
  import opened BlockCache

  datatype LookupState = LookupAcquiringSuperblock | LookupAcquiringRoot | LookupAcquiringNode

  /** The order the lookup moves through its states. */
  function StateRank(s: LookupState): nat
  {
    match s
    case LookupAcquiringSuperblock => 0
    case LookupAcquiringRoot => 1
    case LookupAcquiringNode => 2
  }

  /** `result_t`: go on, wait for a wake-up, or done. */
  datatype TransitionResult = BtreeTransitionOk | BtreeTransitionIncomplete | BtreeFsmComplete

  datatype OpResult = BtreeFound | BtreeNotFound

  /** The kind of a wake-up event; only disk events concern a lookup. */
  datatype EventType = EtDisk | EtOther

  /** What `do_transition` does: return a result, or stop the process in a failed `check`. */
  datatype DriverOutcome = Returned(res: TransitionResult) | CheckFailed

  /** `do_transition` accepts no event at all, or a disk event. */
  predicate Accepted(event: Option<EventType>)
  {
    event.None? || event.value == EtDisk
  }

  class BtreeFsm {
    const cache: Cache
    var key: Key
    var state: LookupState
    var nodeId: BlockId
    /** The `node_t*` last returned by `acquire`; None is NULL. */
    var node: Option<Page>
    /** `op_result`; None until the lookup sets it. */
    var opResult: Option<OpResult>
    var value: Value
    /** Whether `node` is a page this lookup currently holds pinned. */
    ghost var pinned: bool

    /**
      The object invariant: the cache's pins are exactly the page this lookup
      holds, never more than one page has been pinned at a time, and the page
      being fetched leads to the same leaf as the root does.
    */
    ghost predicate Valid()
      reads this, cache
    {
      cache.Valid() &&
      cache.pins == (if pinned then multiset{nodeId} else multiset{}) &&
      cache.peak <= 1 &&
      (pinned ==> state == LookupAcquiringNode && nodeId in cache.available && node == Some(cache.pages[nodeId])) &&
      (state == LookupAcquiringRoot ==> nodeId == cache.Root()) &&
      (state == LookupAcquiringNode ==>
         nodeId != cache.superblockId && cache.Root() in cache.pages &&
         cache.Descend(nodeId, key) == cache.Descend(cache.Root(), key))
    }

    /**
      A further `DoTransition` is safe: in `LookupAcquiringNode` the node step
      asserts `node` and releases it, so `node` must be a page still held.
    */
    ghost predicate CanResume()
      reads this
    {
      state == LookupAcquiringNode ==> pinned
    }

    /** The result fields agree with what the tree holds for `key`. */
    ghost predicate ReportsTree()
      requires cache.WellFormed()
      reads this
    {
      if cache.IsBlockIdNull(cache.Root()) then opResult == Some(BtreeNotFound)
      else match cache.Descend(cache.Root(), key)
        case Some(answer) =>
          opResult == Some(if answer.code == 1 then BtreeFound else BtreeNotFound) && value == answer.value
        case None => false
    }

    /**
      What a step that stops the walk leaves behind: on completion no page is
      held and the answer is the tree's; a lookup that must wait can be
      resumed unless it stopped after a child acquire missed.
    */
    ghost predicate Settled(res: TransitionResult)
      requires cache.WellFormed()
      reads this, cache
    {
      (res == BtreeFsmComplete ==>
         cache.pins == multiset{} && ReportsTree() && (CanResume() <==> state == LookupAcquiringRoot)) &&
      (res == BtreeTransitionIncomplete ==> (CanResume() <==> state != LookupAcquiringNode))
    }

    constructor (cache: Cache)
      requires cache.Valid() && cache.pins == multiset{} && cache.peak <= 1
      ensures this.cache == cache && Valid() && !pinned
      ensures node == None && opResult == None
    {
      this.cache := cache;
      key := 0;
      state := LookupAcquiringSuperblock;
      nodeId := cache.nullId;
      node := None;
      opResult := None;
      value := 0;
      pinned := false;
    }

    /** `init_lookup`: store the key and start at the superblock; nothing else changes. */
    method InitLookup(k: Key)
      requires Valid() && !pinned
      modifies this`key, this`state
      ensures key == k && state == LookupAcquiringSuperblock
      ensures Valid() && CanResume()
    {
      key := k;
      state := LookupAcquiringSuperblock;
    }

    /**
      `get_root_id`: read the root id out of the superblock page. On a miss
      it returns 0 and leaves the id as it was, without a release; on a hit
      it copies the root id, releases the superblock once, clean, and returns 1.
    */
    method GetRootId(rootId: BlockId) returns (r: int, rootIdOut: BlockId)
      requires cache.Valid()
      modifies cache`pins, cache`peak, cache`log, cache`dirtyReleases
      ensures cache.Valid()
      ensures r == 0 || r == 1
      ensures r == 1 <==> cache.superblockId in cache.available
      ensures r == 0 ==> rootIdOut == rootId &&
                         cache.log == old(cache.log) + [AcquireCall(cache.superblockId, false)]
      ensures r == 1 ==> rootIdOut == cache.Root() &&
                         cache.log == old(cache.log) + [AcquireCall(cache.superblockId, true),
                                                        ReleaseCall(cache.superblockId, false)]
      ensures cache.pins == old(cache.pins) && cache.dirtyReleases == old(cache.dirtyReleases)
      ensures cache.peak == if r == 1 && |old(cache.pins)| + 1 > old(cache.peak)
                            then |old(cache.pins)| + 1 else old(cache.peak)
    {
      var superblockId := cache.superblockId;
      var buf := cache.Acquire(superblockId);
      if buf.None? {
        return 0, rootId;
      }
      rootIdOut := buf.value.rootId;
      cache.Release(superblockId, false);
      assert cache.pins == old(cache.pins);
      r := 1;
    }

    /** `do_lookup_acquiring_superblock`: fetch the root id, then move on to the root. */
    method DoLookupAcquiringSuperblock() returns (res: TransitionResult)
      requires Valid() && state == LookupAcquiringSuperblock
      modifies this`state, this`nodeId, cache`pins, cache`peak, cache`log, cache`dirtyReleases
      ensures Valid() && cache.dirtyReleases == old(cache.dirtyReleases)
      ensures res != BtreeFsmComplete
      ensures res == BtreeTransitionOk <==> cache.superblockId in cache.available
      ensures res == BtreeTransitionOk ==>
        state == LookupAcquiringRoot && nodeId == cache.Root() &&
        cache.log == old(cache.log) + [AcquireCall(cache.superblockId, true), ReleaseCall(cache.superblockId, false)]
      ensures res == BtreeTransitionIncomplete ==>
        state == old(state) && nodeId == old(nodeId) &&
        cache.log == old(cache.log) + [AcquireCall(cache.superblockId, false)]
      ensures Settled(res)
    {
      var found, rootId := GetRootId(nodeId);
      nodeId := rootId;
      if found == 0 {
        return BtreeTransitionIncomplete;
      }
      state := LookupAcquiringRoot;
      return BtreeTransitionOk;
    }

    /**
      `do_lookup_acquiring_root`: an empty tree completes as not found without
      any acquire; otherwise acquire the root and, on a hit, hold it and move
      on to the node step.
    */
    method DoLookupAcquiringRoot() returns (res: TransitionResult)
      requires Valid() && state == LookupAcquiringRoot
      modifies this`state, this`node, this`opResult, this`pinned, cache`pins, cache`peak, cache`log
      ensures Valid()
      ensures cache.IsBlockIdNull(nodeId) ==>
        res == BtreeFsmComplete && opResult == Some(BtreeNotFound) &&
        state == old(state) && node == old(node) && !pinned && cache.log == old(cache.log)
      ensures !cache.IsBlockIdNull(nodeId) ==>
        opResult == old(opResult) &&
        cache.log == old(cache.log) + [AcquireCall(nodeId, nodeId in cache.available)]
      ensures !cache.IsBlockIdNull(nodeId) && nodeId !in cache.available ==>
        res == BtreeTransitionIncomplete && state == old(state) && node == None && !pinned
      ensures !cache.IsBlockIdNull(nodeId) && nodeId in cache.available ==>
        res == BtreeTransitionOk && state == LookupAcquiringNode && pinned &&
        node == Some(cache.pages[nodeId])
      ensures Settled(res)
      ensures cache.SuperblockUntouched(old(cache.log), cache.log)
    {
      if cache.IsBlockIdNull(nodeId) {
        opResult := Some(BtreeNotFound);
        return BtreeFsmComplete;
      }
      node := cache.Acquire(nodeId);
      if node.None? {
        return BtreeTransitionIncomplete;
      }
      pinned := true;
      state := LookupAcquiringNode;
      return BtreeTransitionOk;
    }

    /**
      `do_lookup_acquiring_node`: at an internal node, release it before
      acquiring the child, so at most one page is ever pinned; at a leaf,
      read the answer and release the leaf once. Every release is clean.
    */
    method DoLookupAcquiringNode() returns (res: TransitionResult)
      requires Valid() && state == LookupAcquiringNode && node.Some? && pinned
      modifies this`nodeId, this`node, this`opResult, this`value, this`pinned,
               cache`pins, cache`peak, cache`log, cache`dirtyReleases
      ensures Valid() && state == LookupAcquiringNode && cache.dirtyReleases == old(cache.dirtyReleases)
      ensures old(node).value.Internal? || old(node).value.Leaf?
      ensures old(node).value.Internal? ==>
        var child := old(node).value.childFor(key);
        nodeId == child && opResult == old(opResult) && value == old(value) &&
        cache.log == old(cache.log) + [ReleaseCall(old(nodeId), false), AcquireCall(child, child in cache.available)] &&
        (res == BtreeTransitionOk <==> child in cache.available) &&
        (res == BtreeTransitionOk ==>
           pinned && node == Some(cache.pages[child]) && cache.rank[child] < cache.rank[old(nodeId)]) &&
        (res == BtreeTransitionIncomplete ==> node == None && !pinned)
      ensures old(node).value.Internal? ==> res != BtreeFsmComplete
      ensures old(node).value.Leaf? ==>
        var answer := old(node).value.lookup(key);
        res == BtreeFsmComplete && !pinned && nodeId == old(nodeId) && node == old(node) &&
        cache.log == old(cache.log) + [ReleaseCall(nodeId, false)] &&
        opResult == Some(if answer.code == 1 then BtreeFound else BtreeNotFound) && value == answer.value
      ensures Settled(res)
      ensures res == BtreeTransitionOk ==> pinned
      ensures res == BtreeTransitionOk ==> (cache.PathCached(nodeId, key) ==> cache.PathCached(old(nodeId), key))
      ensures res == BtreeFsmComplete ==> cache.PathCached(nodeId, key)
      ensures cache.PathCached(old(nodeId), key) ==>
        res != BtreeTransitionIncomplete && (res == BtreeTransitionOk ==> cache.PathCached(nodeId, key))
      ensures cache.SuperblockUntouched(old(cache.log), cache.log)
      ensures res == BtreeTransitionOk ==> cache.log + cache.NodeCalls(nodeId, key) == old(cache.log) + cache.NodeCalls(old(nodeId), key)
      ensures res != BtreeTransitionOk ==> cache.log == old(cache.log) + cache.NodeCalls(old(nodeId), key)
    {
      if node.value.Internal? {
        cache.NodeCallsChild(nodeId, key, cache.log);
        res := StepToChild();
      } else {
        cache.NodeCallsLeaf(nodeId, key, cache.log);
        res := ReadLeaf();
      }
    }

    /** The internal-node half of the node step: release the node, then acquire the child for the key. */
    method StepToChild() returns (res: TransitionResult)
      requires Valid() && state == LookupAcquiringNode && pinned && node.Some? && node.value.Internal?
      modifies this`nodeId, this`node, this`pinned, cache`pins, cache`peak, cache`log, cache`dirtyReleases
      ensures Valid() && state == LookupAcquiringNode && cache.dirtyReleases == old(cache.dirtyReleases)
      ensures var child := old(node).value.childFor(key);
        nodeId == child &&
        cache.log == old(cache.log) + [ReleaseCall(old(nodeId), false), AcquireCall(child, child in cache.available)] &&
        (res == BtreeTransitionOk <==> child in cache.available) && (res == BtreeTransitionOk <==> pinned) &&
        (res == BtreeTransitionOk ==> node == Some(cache.pages[child]) && cache.rank[child] < cache.rank[old(nodeId)]) &&
        (res == BtreeTransitionIncomplete ==> node == None)
      ensures res == BtreeTransitionOk || res == BtreeTransitionIncomplete
      ensures cache.PathCached(old(nodeId), key) <==> cache.PathCached(nodeId, key)
      ensures cache.SuperblockUntouched(old(cache.log), cache.log)
    {
      var nextNodeId := node.value.childFor(key);
      cache.ChildStep(nodeId, key);
      cache.Release(nodeId, false);
      pinned := false;
      nodeId := nextNodeId;
      node := cache.Acquire(nodeId);
      pinned := node.Some?;
      if node.Some? {
        res := BtreeTransitionOk;
      } else {
        res := BtreeTransitionIncomplete;
      }
    }

    /** The leaf half of the node step: read the answer for the key and release the leaf, clean. */
    method ReadLeaf() returns (res: TransitionResult)
      requires Valid() && state == LookupAcquiringNode && pinned && node.Some? && node.value.Leaf?
      modifies this`opResult, this`value, this`pinned, cache`pins, cache`log, cache`dirtyReleases
      ensures Valid() && !pinned && cache.pins == multiset{} && cache.dirtyReleases == old(cache.dirtyReleases)
      ensures var answer := node.value.lookup(key);
        res == BtreeFsmComplete && cache.log == old(cache.log) + [ReleaseCall(nodeId, false)] &&
        opResult == Some(if answer.code == 1 then BtreeFound else BtreeNotFound) && value == answer.value
      ensures ReportsTree() && cache.PathCached(nodeId, key)
      ensures cache.SuperblockUntouched(old(cache.log), cache.log)
    {
      var answer := node.value.lookup(key);
      cache.LeafStep(nodeId, key);
      value := answer.value;
      cache.Release(nodeId, false);
      pinned := false;
      opResult := Some(if answer.code == 1 then BtreeFound else BtreeNotFound);
      res := BtreeFsmComplete;
    }

    /**
      The loop that ends `do_transition`: node steps for as long as each
      says go on. It stops holding no page; it completes exactly when the
      rest of the path, from the node it holds on entry, is cached; and its
      cache calls are exactly the node calls from that node.
    */
    method AcquireNodes() returns (res: TransitionResult)
      requires Valid() && state == LookupAcquiringNode && pinned
      modifies this`nodeId, this`node, this`opResult, this`value, this`pinned,
               cache`pins, cache`peak, cache`log, cache`dirtyReleases
      ensures Valid() && state == LookupAcquiringNode && cache.dirtyReleases == old(cache.dirtyReleases)
      ensures res == BtreeFsmComplete || res == BtreeTransitionIncomplete
      ensures Settled(res)
      ensures res == BtreeFsmComplete <==> cache.PathCached(old(nodeId), key)
      ensures res == BtreeTransitionIncomplete ==> node == None && !pinned
      ensures cache.SuperblockUntouched(old(cache.log), cache.log)
      ensures cache.log == old(cache.log) + cache.NodeCalls(old(nodeId), key)
    {
      res := BtreeTransitionOk;
      while res == BtreeTransitionOk && state == LookupAcquiringNode
        invariant Valid() && state == LookupAcquiringNode
        invariant cache.dirtyReleases == old(cache.dirtyReleases)
        invariant res == BtreeTransitionOk ==> pinned
        invariant Settled(res)
        invariant res == BtreeTransitionOk ==> (cache.PathCached(old(nodeId), key) <==> cache.PathCached(nodeId, key))
        invariant res == BtreeFsmComplete ==> cache.PathCached(old(nodeId), key)
        invariant res == BtreeTransitionIncomplete ==> !cache.PathCached(old(nodeId), key) && node == None
        invariant cache.SuperblockUntouched(old(cache.log), cache.log)
        invariant res == BtreeTransitionOk ==>
          cache.log + cache.NodeCalls(nodeId, key) == old(cache.log) + cache.NodeCalls(old(nodeId), key)
        invariant res != BtreeTransitionOk ==> cache.log == old(cache.log) + cache.NodeCalls(old(nodeId), key)
        decreases if res == BtreeTransitionOk then cache.rank[nodeId] + 1 else 0
      {
        ghost var before := cache.log;
        res := DoLookupAcquiringNode();
        cache.SuperblockUntouchedTrans(old(cache.log), before, cache.log);
      }
    }

    /**
      The wake-up gets as far as the root step: it starts there, or starts at
      the superblock and finds it cached.
    */
    ghost predicate RootStepReached(start: LookupState)
      requires cache.WellFormed()
      reads this, cache`available
    {
      start == LookupAcquiringRoot || (start == LookupAcquiringSuperblock && cache.superblockId in cache.available)
    }

    /**
      `do_transition`: on an accepted event, run the steps in order
      superblock, root, then nodes for as long as each step says go on.
      The result is never "go on", the state never moves back, a completed
      lookup holds no page and reports what the tree holds for the key, and a
      lookup started at the superblock completes in a single call exactly
      when every page on its path is cached, and one resumed at the root
      completes exactly when the root's path is. A call that must wait stops
      at the step whose acquire missed, holding nothing: at the superblock or
      root step it can be resumed there, but after a child miss it is left in
      the node step with `node` NULL and can no longer be resumed. The cache
      calls are stated outright: those of the superblock and root steps, then
      the node calls from the root or the held node; a lookup resumed past
      the superblock step never goes back to the superblock. An event of the
      wrong kind fails the check from any state, even one that cannot be
      resumed.
    */
    method DoTransition(event: Option<EventType>) returns (out: DriverOutcome)
      requires Valid() && (Accepted(event) ==> CanResume())
      modifies this`state, this`nodeId, this`node, this`opResult, this`value, this`pinned,
               cache`pins, cache`peak, cache`log, cache`dirtyReleases
      ensures Valid()
      ensures out.CheckFailed? <==> !Accepted(event)
      ensures out.CheckFailed? ==> unchanged(this) && unchanged(cache)
      ensures out.Returned? ==> out.res != BtreeTransitionOk
      ensures StateRank(old(state)) <= StateRank(state)
      ensures cache.dirtyReleases == old(cache.dirtyReleases)
      ensures out.Returned? ==> Settled(out.res)
      ensures Accepted(event) && old(state) == LookupAcquiringSuperblock ==>
        (out == Returned(BtreeFsmComplete) <==> cache.LookupCached(key))
      ensures Accepted(event) && old(state) == LookupAcquiringRoot ==>
        (out == Returned(BtreeFsmComplete) <==>
           cache.IsBlockIdNull(old(nodeId)) || cache.PathCached(old(nodeId), key))
      ensures Accepted(event) && old(state) == LookupAcquiringNode ==>
        (out == Returned(BtreeFsmComplete) <==> cache.PathCached(old(nodeId), key))
      // Where a wake-up that must wait stops: at the step whose acquire missed.
      ensures Accepted(event) && old(state) == LookupAcquiringSuperblock && cache.superblockId !in cache.available ==>
        out == Returned(BtreeTransitionIncomplete) && state == LookupAcquiringSuperblock &&
        nodeId == old(nodeId) && node == old(node) && !pinned &&
        cache.log == old(cache.log) + [AcquireCall(cache.superblockId, false)]
      ensures Accepted(event) && RootStepReached(old(state)) && !cache.IsBlockIdNull(cache.Root()) &&
              cache.Root() !in cache.available ==>
        out == Returned(BtreeTransitionIncomplete) && state == LookupAcquiringRoot &&
        nodeId == cache.Root() && node == None && !pinned
      ensures Accepted(event) && RootStepReached(old(state)) && !cache.IsBlockIdNull(cache.Root()) &&
              cache.Root() in cache.available && !cache.PathCached(cache.Root(), key) ==>
        out == Returned(BtreeTransitionIncomplete) && state == LookupAcquiringNode && node == None && !CanResume()
      ensures Accepted(event) && old(state) == LookupAcquiringNode && !cache.PathCached(old(nodeId), key) ==>
        out == Returned(BtreeTransitionIncomplete) && state == LookupAcquiringNode && node == None && !CanResume()
      // The cache calls a wake-up makes before the node steps; a resumed lookup never goes back to the superblock.
      ensures Accepted(event) && old(state) != LookupAcquiringSuperblock ==>
        cache.SuperblockUntouched(old(cache.log), cache.log)
      ensures Accepted(event) && old(state) == LookupAcquiringRoot && cache.IsBlockIdNull(old(nodeId)) ==>
        state == LookupAcquiringRoot && cache.log == old(cache.log)
      ensures Accepted(event) && old(state) == LookupAcquiringRoot && !cache.IsBlockIdNull(old(nodeId)) &&
              old(nodeId) !in cache.available ==>
        cache.log == old(cache.log) + [AcquireCall(old(nodeId), false)]
      ensures Accepted(event) && old(state) == LookupAcquiringSuperblock && cache.superblockId in cache.available &&
              cache.IsBlockIdNull(cache.Root()) ==>
        state == LookupAcquiringRoot &&
        cache.log == old(cache.log) + [AcquireCall(cache.superblockId, true), ReleaseCall(cache.superblockId, false)]
      ensures Accepted(event) && old(state) == LookupAcquiringSuperblock && cache.superblockId in cache.available &&
              !cache.IsBlockIdNull(cache.Root()) && cache.Root() !in cache.available ==>
        cache.log == old(cache.log) + [AcquireCall(cache.superblockId, true), ReleaseCall(cache.superblockId, false),
                                       AcquireCall(cache.Root(), false)]
      // Past the root step, the cache calls are the node calls from the page the lookup holds.
      ensures Accepted(event) && old(state) == LookupAcquiringNode ==>
        cache.log == old(cache.log) + cache.NodeCalls(old(nodeId), key)
      ensures Accepted(event) && old(state) == LookupAcquiringRoot && !cache.IsBlockIdNull(old(nodeId)) &&
              old(nodeId) in cache.available ==>
        cache.log == old(cache.log) + [AcquireCall(old(nodeId), true)] + cache.NodeCalls(old(nodeId), key)
      ensures Accepted(event) && old(state) == LookupAcquiringSuperblock && cache.superblockId in cache.available &&
              !cache.IsBlockIdNull(cache.Root()) && cache.Root() in cache.available ==>
        cache.log == old(cache.log) + [AcquireCall(cache.superblockId, true), ReleaseCall(cache.superblockId, false),
                                       AcquireCall(cache.Root(), true)] + cache.NodeCalls(cache.Root(), key)
    {
      var res := BtreeTransitionOk;
      if !Accepted(event) {
        return CheckFailed;
      }
      if state == LookupAcquiringSuperblock {
        res := StartWalk();
      } else {
        res := ResumeWalk();
      }
      out := Returned(res);
    }

    /**
      `do_transition` from the superblock step: read the root id, then, if
      the superblock was cached, go on as a resumed walk from the root step.
      It completes exactly when the lookup's whole path is cached.
    */
    method StartWalk() returns (res: TransitionResult)
      requires Valid() && state == LookupAcquiringSuperblock
      modifies this`state, this`node, this`nodeId, this`opResult, this`value, this`pinned,
               cache`pins, cache`peak, cache`log, cache`dirtyReleases
      ensures Valid() && cache.dirtyReleases == old(cache.dirtyReleases)
      ensures res == BtreeFsmComplete || res == BtreeTransitionIncomplete
      ensures Settled(res)
      ensures res == BtreeFsmComplete <==> cache.LookupCached(key)
      ensures cache.superblockId !in cache.available ==>
        res == BtreeTransitionIncomplete && state == LookupAcquiringSuperblock &&
        nodeId == old(nodeId) && node == old(node) && !pinned &&
        cache.log == old(cache.log) + [AcquireCall(cache.superblockId, false)]
      ensures cache.superblockId in cache.available && cache.IsBlockIdNull(cache.Root()) ==>
        state == LookupAcquiringRoot &&
        cache.log == old(cache.log) + [AcquireCall(cache.superblockId, true), ReleaseCall(cache.superblockId, false)]
      ensures cache.superblockId in cache.available && !cache.IsBlockIdNull(cache.Root()) &&
              cache.Root() !in cache.available ==>
        res == BtreeTransitionIncomplete && state == LookupAcquiringRoot &&
        nodeId == cache.Root() && node == None && !pinned &&
        cache.log == old(cache.log) + [AcquireCall(cache.superblockId, true), ReleaseCall(cache.superblockId, false),
                                       AcquireCall(cache.Root(), false)]
      ensures cache.superblockId in cache.available && !cache.IsBlockIdNull(cache.Root()) &&
              cache.Root() in cache.available && !cache.PathCached(cache.Root(), key) ==>
        res == BtreeTransitionIncomplete && state == LookupAcquiringNode && node == None && !CanResume()
      ensures cache.superblockId in cache.available && !cache.IsBlockIdNull(cache.Root()) &&
              cache.Root() in cache.available ==>
        cache.log == old(cache.log) + [AcquireCall(cache.superblockId, true), ReleaseCall(cache.superblockId, false),
                                       AcquireCall(cache.Root(), true)] + cache.NodeCalls(cache.Root(), key)
    {
      res := DoLookupAcquiringSuperblock();
      if res == BtreeTransitionOk {
        res := ResumeWalk();
      }
    }

    /**
      The rest of `do_transition` once the superblock step is behind it: the
      root step if the lookup is there, then node steps for as long as each
      says go on. It stops at the step whose acquire missed, and it never
      touches the superblock.
    */
    method ResumeWalk() returns (res: TransitionResult)
      requires Valid() && CanResume() && state != LookupAcquiringSuperblock
      modifies this`state, this`node, this`nodeId, this`opResult, this`value, this`pinned,
               cache`pins, cache`peak, cache`log, cache`dirtyReleases
      ensures Valid() && cache.dirtyReleases == old(cache.dirtyReleases)
      ensures res == BtreeFsmComplete || res == BtreeTransitionIncomplete
      ensures StateRank(old(state)) <= StateRank(state) && Settled(res)
      ensures cache.SuperblockUntouched(old(cache.log), cache.log)
      ensures old(state) == LookupAcquiringRoot ==>
        (res == BtreeFsmComplete <==> cache.IsBlockIdNull(old(nodeId)) || cache.PathCached(old(nodeId), key))
      ensures old(state) == LookupAcquiringNode ==>
        (res == BtreeFsmComplete <==> cache.PathCached(old(nodeId), key))
      ensures old(state) == LookupAcquiringRoot && cache.IsBlockIdNull(old(nodeId)) ==>
        state == LookupAcquiringRoot && cache.log == old(cache.log)
      ensures old(state) == LookupAcquiringRoot && !cache.IsBlockIdNull(old(nodeId)) &&
              old(nodeId) !in cache.available ==>
        res == BtreeTransitionIncomplete && state == LookupAcquiringRoot &&
        nodeId == old(nodeId) && node == None && !pinned &&
        cache.log == old(cache.log) + [AcquireCall(old(nodeId), false)]
      ensures old(state) == LookupAcquiringRoot && !cache.IsBlockIdNull(old(nodeId)) &&
              old(nodeId) in cache.available && !cache.PathCached(old(nodeId), key) ==>
        res == BtreeTransitionIncomplete && state == LookupAcquiringNode && node == None && !CanResume()
      ensures old(state) == LookupAcquiringNode && !cache.PathCached(old(nodeId), key) ==>
        res == BtreeTransitionIncomplete && state == LookupAcquiringNode && node == None && !CanResume()
      ensures old(state) == LookupAcquiringRoot && !cache.IsBlockIdNull(old(nodeId)) && old(nodeId) in cache.available ==>
        cache.log == old(cache.log) + [AcquireCall(old(nodeId), true)] + cache.NodeCalls(old(nodeId), key)
      ensures old(state) == LookupAcquiringNode ==> cache.log == old(cache.log) + cache.NodeCalls(old(nodeId), key)
    {
      res := BtreeTransitionOk;
      ghost var beforeRoot := cache.log;
      cache.SuperblockUntouchedRefl(beforeRoot);
      if res == BtreeTransitionOk && state == LookupAcquiringRoot {
        res := DoLookupAcquiringRoot();
      }
      ghost var beforeNodes := cache.log;
      if res == BtreeTransitionOk && state == LookupAcquiringNode {
        res := AcquireNodes();
        cache.SuperblockUntouchedTrans(beforeRoot, beforeNodes, cache.log);
      }
    }
  }
}

=== FILE: little_endian.dfy ===
/**
  Fixed-width unsigned integers as little-endian byte strings.

  The replication structures are packed and copied to the wire as they lie in
  memory; the host byte order is not fixed by the structure declarations, so
  this model fixes it as little-endian (least significant byte first).
*/
module LittleEndian {

  type Byte = b: nat | b < 0x100

  /** 256^n: the number of distinct values an n-byte unsigned field holds. */
  function Pow256(n: nat): (r: nat)
    ensures r >= 1
    ensures n > 0 ==> r >= 0x100
  {
    if n == 0 then 1 else 0x100 * Pow256(n - 1)
  }

  /** The `width` bytes of `x`, least significant first. */
  function EncodeUint(x: nat, width: nat): (r: seq<Byte>)
    requires x < Pow256(width)
    ensures |r| == width
    ensures width > 0 ==> r[0] == x % 0x100
  {
    if width == 0 then []
    else
      assert x / 0x100 < Pow256(width - 1);
      [(x % 0x100) as Byte] + EncodeUint(x / 0x100, width - 1)
  }

  /** The unsigned value of a little-endian byte string. */
  function DecodeUint(s: seq<Byte>): (x: nat)
    ensures x < Pow256(|s|)
  {
    if s == [] then 0
    else
      var rest := DecodeUint(s[1..]);
      assert rest <= Pow256(|s| - 1) - 1;
      assert 0x100 * rest <= 0x100 * Pow256(|s| - 1) - 0x100;
      s[0] + 0x100 * rest
  }

  lemma {:induction false} DecodeEncodeUint(x: nat, width: nat)
    requires x < Pow256(width)
    ensures DecodeUint(EncodeUint(x, width)) == x
  {
    if width > 0 {
      DecodeEncodeUint(x / 0x100, width - 1);
      assert EncodeUint(x, width)[1..] == EncodeUint(x / 0x100, width - 1);
    }
  }

  lemma {:induction false} EncodeDecodeUint(s: seq<Byte>)
    ensures EncodeUint(DecodeUint(s), |s|) == s
  {
    if s != [] {
      var rest := DecodeUint(s[1..]);
      var x := s[0] + 0x100 * rest;
      assert x % 0x100 == s[0] && x / 0x100 == rest;
      EncodeDecodeUint(s[1..]);
      assert [s[0]] + s[1..] == s;
    }
  }

  /** Two-byte fields: the low byte comes first. */
  lemma EncodeUint16(x: nat)
    requires x < 0x1_0000
    ensures Pow256(2) == 0x1_0000
    ensures EncodeUint(x, 2) == [x % 0x100, x / 0x100]
  {
    assert Pow256(2) == 0x1_0000;
    assert EncodeUint(x / 0x100, 1) == [(x / 0x100) as Byte];
  }
}

=== FILE: lookup_scenarios.dfy ===
/**
  Whole lookups on small trees, each on a cache and a state machine of its
  own: an empty tree, a tree that is a single leaf, a two-level tree whose
  pages are all cached, two-level trees whose superblock, root or leaf must
  first be fetched, and an event of the wrong kind.
*/
module LookupScenarios {
  import opened Options
  import opened BlockCache
  import opened BtreeLookup

  const SuperblockId: BlockId := 0
  const NullId: BlockId := -1
  const RootId: BlockId := 1
  const LeafId: BlockId := 2

  /** The leaf every scenario uses: it holds every key, with ten times the key as its value. */
  function TenTimes(k: Key): LeafAnswer
  {
    LeafAnswer(1, 10 * k)
  }

  /** A root that sends every key to the leaf. */
  function ToLeaf(k: Key): BlockId
  {
    LeafId
  }

  /**
    An empty tree completes on the first wake-up, as not found, holding no
    page; the only cache calls are the superblock's acquire and release. The
    lookup is left at the root step, so a further wake-up is allowed: it
    completes as not found again without any cache call.
  */
  method EmptyTree(k: Key) returns (out: DriverOutcome, again: DriverOutcome, fsm: BtreeFsm)
    ensures out == Returned(BtreeFsmComplete) && again == Returned(BtreeFsmComplete)
    ensures fsm.opResult == Some(BtreeNotFound) && fsm.cache.pins == multiset{}
    ensures fsm.cache.log == [AcquireCall(SuperblockId, true), ReleaseCall(SuperblockId, false)]
  {
    var cache := new Cache(SuperblockId, NullId, map[SuperblockId := Superblock(NullId)],
                           map[SuperblockId := 0], {SuperblockId});
    fsm := new BtreeFsm(cache);
    fsm.InitLookup(k);
    out := fsm.DoTransition(None);
    again := fsm.DoTransition(Some(EtDisk));
  }

  /** A root that is itself a cached leaf answers in one call with the leaf's value. */
  method SingleLeaf(k: Key) returns (out: DriverOutcome, fsm: BtreeFsm)
    ensures out == Returned(BtreeFsmComplete)
    ensures fsm.opResult == Some(BtreeFound) && fsm.value == 10 * k
    ensures fsm.cache.pins == multiset{} && fsm.cache.peak <= 1
    ensures fsm.cache.log == [AcquireCall(SuperblockId, true), ReleaseCall(SuperblockId, false),
                              AcquireCall(RootId, true), ReleaseCall(RootId, false)]
  {
    var pages := map[SuperblockId := Superblock(RootId), RootId := Leaf(TenTimes)];
    var cache := new Cache(SuperblockId, NullId, pages, map[SuperblockId := 0, RootId := 0],
                           {SuperblockId, RootId});
    fsm := new BtreeFsm(cache);
    fsm.InitLookup(k);
    assert cache.PathCached(RootId, k);
    assert cache.NodeCalls(RootId, k) == [ReleaseCall(RootId, false)];
    out := fsm.DoTransition(None);
  }

  /** The pages of a two-level tree: the superblock, an internal root and one leaf. */
  function TwoLevel(): map<BlockId, Page>
  {
    map[SuperblockId := Superblock(RootId), RootId := Internal(ToLeaf), LeafId := Leaf(TenTimes)]
  }

  function TwoLevelRank(): map<BlockId, nat>
  {
    map[SuperblockId := 0, RootId := 1, LeafId := 0]
  }

  /** A new cache over the two-level tree, with the given pages cached and nothing pinned. */
  method NewTwoLevelCache(available: set<BlockId>) returns (cache: Cache)
    requires available <= TwoLevel().Keys
    ensures fresh(cache)
    ensures cache.Valid() && cache.pins == multiset{} && cache.peak == 0 && cache.log == []
    ensures cache.superblockId == SuperblockId && cache.nullId == NullId
    ensures cache.pages == TwoLevel() && cache.available == available && cache.Root() == RootId
  {
    cache := new Cache(SuperblockId, NullId, TwoLevel(), TwoLevelRank(), available);
  }

  /** In the two-level tree every key leads to the leaf, whose path is the root and the leaf. */
  lemma TwoLevelWalk(cache: Cache, k: Key)
    requires cache.WellFormed() && cache.pages == TwoLevel()
    ensures cache.Descend(RootId, k) == Some(TenTimes(k))
    ensures cache.PathCached(RootId, k) <==> RootId in cache.available && LeafId in cache.available
  {
    cache.ChildStep(RootId, k);
    cache.LeafStep(LeafId, k);
  }

  /**
    In the two-level tree the node calls from the root are its release and the
    leaf's acquire, then, if that hits, the leaf's release.
  */
  lemma TwoLevelNodeCalls(cache: Cache, k: Key)
    requires cache.WellFormed() && cache.pages == TwoLevel()
    ensures cache.NodeCalls(RootId, k) ==
      [ReleaseCall(RootId, false), AcquireCall(LeafId, LeafId in cache.available)] +
      (if LeafId in cache.available then [ReleaseCall(LeafId, false)] else [])
  {
    assert cache.NodeCalls(LeafId, k) == [ReleaseCall(LeafId, false)];
  }

  /** A lookup in the two-level tree that reports what the tree holds has found ten times its key. */
  lemma TwoLevelAnswer(fsm: BtreeFsm)
    requires fsm.cache.WellFormed() && fsm.cache.pages == TwoLevel()
    requires fsm.cache.superblockId == SuperblockId && fsm.cache.nullId == NullId
    requires fsm.ReportsTree()
    ensures fsm.opResult == Some(BtreeFound) && fsm.value == 10 * fsm.key
  {
    TwoLevelWalk(fsm.cache, fsm.key);
  }

  /**
    With every page cached, a two-level lookup walks root to leaf in one call,
    acquiring and releasing each page once, and nothing follows the leaf's
    release.
  */
  method WarmTwoLevel(k: Key) returns (out: DriverOutcome, fsm: BtreeFsm)
    ensures out == Returned(BtreeFsmComplete)
    ensures fsm.opResult == Some(BtreeFound) && fsm.value == 10 * k
    ensures fsm.cache.pins == multiset{} && fsm.cache.peak <= 1
    ensures fsm.cache.log == [AcquireCall(SuperblockId, true), ReleaseCall(SuperblockId, false),
                              AcquireCall(RootId, true), ReleaseCall(RootId, false),
                              AcquireCall(LeafId, true), ReleaseCall(LeafId, false)]
  {
    var cache := NewTwoLevelCache({SuperblockId, RootId, LeafId});
    TwoLevelWalk(cache, k);
    TwoLevelNodeCalls(cache, k);
    fsm := new BtreeFsm(cache);
    fsm.InitLookup(k);
    out := fsm.DoTransition(None);
    TwoLevelAnswer(fsm);
  }

  /**
    With nothing cached, the first wake-up stops at the superblock step and
    stays there; nothing is pinned, so the next wake-up retries that step.
  */
  method ColdSuperblock(k: Key) returns (out: DriverOutcome, fsm: BtreeFsm)
    ensures out == Returned(BtreeTransitionIncomplete)
    ensures fsm.state == LookupAcquiringSuperblock && fsm.cache.pins == multiset{} && fsm.CanResume()
    ensures fsm.cache.log == [AcquireCall(SuperblockId, false)]
  {
    var cache := NewTwoLevelCache({});
    fsm := new BtreeFsm(cache);
    fsm.InitLookup(k);
    out := fsm.DoTransition(None);
  }

  /**
    With the leaf not yet cached, the first wake-up stops after the child
    acquire misses: the state is still the node step, `node` is NULL and no
    page is held. Even once the leaf's fetch has completed, the lookup cannot
    be resumed, because the node step would act on a page it does not hold.
  */
  method ColdLeaf(k: Key) returns (out: DriverOutcome, fsm: BtreeFsm)
    ensures fresh(fsm) && fresh(fsm.cache) && fsm.Valid() && out == Returned(BtreeTransitionIncomplete)
    ensures fsm.state == LookupAcquiringNode && fsm.node == None
    ensures fsm.cache.pins == multiset{} && LeafId in fsm.cache.available
    ensures !fsm.CanResume()
    ensures fsm.cache.log == [AcquireCall(SuperblockId, true), ReleaseCall(SuperblockId, false),
                              AcquireCall(RootId, true), ReleaseCall(RootId, false), AcquireCall(LeafId, false)]
  {
    var cache := NewTwoLevelCache({SuperblockId, RootId});
    TwoLevelWalk(cache, k);
    TwoLevelNodeCalls(cache, k);
    fsm := new BtreeFsm(cache);
    fsm.InitLookup(k);
    out := fsm.DoTransition(None);
    cache.FetchCompleted(LeafId);
  }

  /**
    A lookup that cannot be resumed still fails the check on an event of the
    wrong kind, and that call changes nothing.
  */
  method WrongEventWhenStuck(k: Key) returns (wrong: DriverOutcome, fsm: BtreeFsm)
    ensures wrong == CheckFailed
    ensures fsm.state == LookupAcquiringNode && fsm.node == None && !fsm.CanResume()
    ensures fsm.cache.log == [AcquireCall(SuperblockId, true), ReleaseCall(SuperblockId, false),
                              AcquireCall(RootId, true), ReleaseCall(RootId, false), AcquireCall(LeafId, false)]
  {
    var out;
    out, fsm := ColdLeaf(k);
    wrong := fsm.DoTransition(Some(EtOther));
  }

  /**
    With only the superblock cached, the first wake-up reads the superblock,
    misses the root and stops at the root step holding nothing.
  */
  method RootMiss(k: Key) returns (out: DriverOutcome, fsm: BtreeFsm)
    ensures fresh(fsm) && fresh(fsm.cache)
    ensures out == Returned(BtreeTransitionIncomplete)
    ensures fsm.Valid() && fsm.CanResume() && fsm.state == LookupAcquiringRoot && fsm.key == k
    ensures fsm.cache.pages == TwoLevel() && fsm.cache.superblockId == SuperblockId && fsm.cache.nullId == NullId
    ensures fsm.cache.available == {SuperblockId}
    ensures fsm.cache.log == [AcquireCall(SuperblockId, true), ReleaseCall(SuperblockId, false), AcquireCall(RootId, false)]
  {
    var cache := NewTwoLevelCache({SuperblockId});
    fsm := new BtreeFsm(cache);
    fsm.InitLookup(k);
    out := fsm.DoTransition(None);
  }

  /**
    With the root not yet cached, the first wake-up stops at the root step;
    once the root's and the leaf's fetches have completed, the next wake-up
    resumes there, without touching the superblock again, and finishes the
    lookup.
  */
  method ColdRoot(k: Key) returns (first: DriverOutcome, second: DriverOutcome, fsm: BtreeFsm)
    ensures first == Returned(BtreeTransitionIncomplete) && second == Returned(BtreeFsmComplete)
    ensures fsm.opResult == Some(BtreeFound) && fsm.value == 10 * k
    ensures fsm.cache.pins == multiset{} && fsm.cache.peak <= 1
    ensures |fsm.cache.log| >= 3 &&
      fsm.cache.log[..3] == [AcquireCall(SuperblockId, true), ReleaseCall(SuperblockId, false), AcquireCall(RootId, false)]
    ensures fsm.cache.SuperblockUntouched(fsm.cache.log[..3], fsm.cache.log)
    ensures fsm.cache.log[3..] == [AcquireCall(RootId, true), ReleaseCall(RootId, false),
                                   AcquireCall(LeafId, true), ReleaseCall(LeafId, false)]
  {
    first, fsm := RootMiss(k);
    var cache := fsm.cache;
    ghost var firstCalls := cache.log;
    cache.FetchCompleted(RootId);
    cache.FetchCompleted(LeafId);
    TwoLevelWalk(cache, k);
    TwoLevelNodeCalls(cache, k);
    assert fsm.Valid() && fsm.CanResume() && fsm.state == LookupAcquiringRoot && fsm.key == k;
    second := fsm.DoTransition(Some(EtDisk));
    assert cache.SuperblockUntouched(firstCalls, cache.log);
    TwoLevelAnswer(fsm);
  }

  /** An event that is neither absent nor a disk event fails the check and changes nothing. */
  method WrongEvent(k: Key) returns (out: DriverOutcome, fsm: BtreeFsm)
    ensures out == CheckFailed
    ensures fsm.state == LookupAcquiringSuperblock && fsm.opResult == None && fsm.cache.log == []
  {
    var cache := NewTwoLevelCache({SuperblockId, RootId, LeafId});
    fsm := new BtreeFsm(cache);
    fsm.InitLookup(k);
    out := fsm.DoTransition(Some(EtOther));
  }
}

=== FILE: net_structs.dfy ===
/**
  Wire layouts of the replication protocol.

  Every message is a packed struct: fixed-width fields with no padding,
  optionally followed by trailing variable-length regions (`key[]`, or
  `keyvalue[]` holding the key and then the value). The widths of `cas_t`,
  `repli_timestamp`, `mcflags_t` and `exptime_t` are declared outside the
  structure file and are therefore a parameter (`Widths`) of every layout.
*/
module NetStructs {
  import opened Options
  import opened LittleEndian
  import opened PackedFields

  // ---------------------------------------------------------------------
  // enum multipart_aspect
  // ---------------------------------------------------------------------

  datatype MultipartAspect = Small | First | Middle | Last

  function AspectTag(a: MultipartAspect): (b: Byte)
    ensures 0x81 <= b <= 0x84
  {
    match a
    case Small => 0x81
    case First => 0x82
    case Middle => 0x83
    case Last => 0x84
  }

  /** Reads a `message_multipart_aspect` byte; only the four tags are aspects. */
  function ParseAspect(b: nat): (r: Option<MultipartAspect>)
    ensures r.Some? <==> 0x81 <= b <= 0x84
    ensures r.Some? ==> AspectTag(r.value) == b
  {
    if b == 0x81 then Some(Small)
    else if b == 0x82 then Some(First)
    else if b == 0x83 then Some(Middle)
    else if b == 0x84 then Some(Last)
    else None
  }

  lemma AspectTagRoundTrip(a: MultipartAspect)
    ensures ParseAspect(AspectTag(a)) == Some(a)
  {
  }

  // ---------------------------------------------------------------------
  // enum message_code
  // ---------------------------------------------------------------------

  datatype MessageCode =
    | MsgcodeNil | Introduce
    | Backfill | BackfillComplete | BackfillDeleteEverything | BackfillSet | BackfillDelete
    | GetCas | Sarc | Incr | Decr | Append | Prepend | Delete | Nop

  /** The codes in declaration order; the C enum numbers them from zero. */
  const MessageCodes: seq<MessageCode> :=
    [MsgcodeNil, Introduce,
     Backfill, BackfillComplete, BackfillDeleteEverything, BackfillSet, BackfillDelete,
     GetCas, Sarc, Incr, Decr, Append, Prepend, Delete, Nop]

  /** The integer value of a code: its position in the declaration. */
  function CodeOf(m: MessageCode): (b: nat)
    ensures b <= 14
    ensures MessageCodes[b] == m
  {
    match m
    case MsgcodeNil => 0
    case Introduce => 1
    case Backfill => 2
    case BackfillComplete => 3
    case BackfillDeleteEverything => 4
    case BackfillSet => 5
    case BackfillDelete => 6
    case GetCas => 7
    case Sarc => 8
    case Incr => 9
    case Decr => 10
    case Append => 11
    case Prepend => 12
    case Delete => 13
    case Nop => 14
  }

  /** Reads a `msgcode` byte: the codes are consecutive from 0, so a byte is a code iff it is at most 14. */
  function ParseMessageCode(b: nat): (r: Option<MessageCode>)
    ensures r.Some? <==> b <= 14
    ensures r.Some? ==> CodeOf(r.value) == b
  {
    if b < |MessageCodes| then
      var m := MessageCodes[b];
      assert CodeOf(m) == b by {
        assert forall i, j :: 0 <= i < j < |MessageCodes| ==> MessageCodes[i] != MessageCodes[j];
      }
      Some(m)
    else None
  }

  lemma MessageCodeRoundTrip(m: MessageCode)
    ensures ParseMessageCode(CodeOf(m)) == Some(m)
  {
  }

  // ---------------------------------------------------------------------
  // Packed structs
  // ---------------------------------------------------------------------

  /** Byte widths of the field types the structure file takes from elsewhere. */
  datatype Widths = Widths(cas: nat, timestamp: nat, flags: nat, exptime: nat)

  /** The struct declarations, one constructor per `net_..._t`. */
  datatype StructType =
    | NetHeaderT | NetMultipartHeaderT
    | NetCastimeT | NetHelloT | NetIntroduceT
    | NetBackfillT | NetBackfillCompleteT | NetBackfillDeleteEverythingT | NetNopT
    | NetGetCasT | NetSarcT | NetBackfillSetT | NetIncrT | NetDecrT
    | NetAppendT | NetPrependT | NetDeleteT | NetBackfillDeleteT

  /**
    One value of a struct. `key_size` and `value_size` are not stored: they
    are the lengths of `key` and `value`, as the sender writes them.
  */
  datatype NetStruct =
    | NetHeader(messageMultipartAspect: nat, msgcode: nat, msgsize: nat)
    | NetMultipartHeader(messageMultipartAspect: nat, msgcode: nat, msgsize: nat, ident: nat)
    | NetCastime(proposedCas: nat, timestamp: nat)
    | NetHello(helloMagic: seq<Byte>, replicationProtocolVersion: nat)
    | NetIntroduce(databaseCreationTimestamp: nat, otherId: nat)
    | NetBackfill(timestamp: nat)
    | NetBackfillComplete(timeBarrierTimestamp: nat)
    | NetBackfillDeleteEverything(padding: nat)
    | NetNop(timestamp: nat)
    | NetGetCas(proposedCas: nat, timestamp: nat, key: seq<Byte>)
    | NetSarc(timestamp: nat, proposedCas: nat, flags: nat, exptime: nat,
              addPolicy: nat, replacePolicy: nat, oldCas: nat, key: seq<Byte>, value: seq<Byte>)
    | NetBackfillSet(timestamp: nat, flags: nat, exptime: nat, casOrZero: nat,
                     key: seq<Byte>, value: seq<Byte>)
    | NetIncr(timestamp: nat, proposedCas: nat, amount: nat, key: seq<Byte>)
    | NetDecr(timestamp: nat, proposedCas: nat, amount: nat, key: seq<Byte>)
    | NetAppend(timestamp: nat, proposedCas: nat, key: seq<Byte>, value: seq<Byte>)
    | NetPrepend(timestamp: nat, proposedCas: nat, key: seq<Byte>, value: seq<Byte>)
    | NetDelete(timestamp: nat, key: seq<Byte>)
    | NetBackfillDelete(padding: nat, key: seq<Byte>)

  function TypeOf(p: NetStruct): StructType
  {
    match p
    case NetHeader(_, _, _) => NetHeaderT
    case NetMultipartHeader(_, _, _, _) => NetMultipartHeaderT
    case NetCastime(_, _) => NetCastimeT
    case NetHello(_, _) => NetHelloT
    case NetIntroduce(_, _) => NetIntroduceT
    case NetBackfill(_) => NetBackfillT
    case NetBackfillComplete(_) => NetBackfillCompleteT
    case NetBackfillDeleteEverything(_) => NetBackfillDeleteEverythingT
    case NetNop(_) => NetNopT
    case NetGetCas(_, _, _) => NetGetCasT
    case NetSarc(_, _, _, _, _, _, _, _, _) => NetSarcT
    case NetBackfillSet(_, _, _, _, _, _) => NetBackfillSetT
    case NetIncr(_, _, _, _) => NetIncrT
    case NetDecr(_, _, _, _) => NetDecrT
    case NetAppend(_, _, _, _) => NetAppendT
    case NetPrepend(_, _, _, _) => NetPrependT
    case NetDelete(_, _) => NetDeleteT
    case NetBackfillDelete(_, _) => NetBackfillDeleteT
  }

  const HelloMagicSize: nat := 16

  /** How many fixed fields each struct declares. */
  function FieldCount(t: StructType): nat
  {
    match t
    case NetHeaderT => 3
    case NetMultipartHeaderT => 4
    case NetCastimeT => 2
    case NetHelloT => HelloMagicSize + 1
    case NetIntroduceT => 2
    case NetBackfillT => 1
    case NetBackfillCompleteT => 1
    case NetBackfillDeleteEverythingT => 1
    case NetNopT => 1
    case NetGetCasT => 3
    case NetSarcT => 9
    case NetBackfillSetT => 6
    case NetIncrT => 4
    case NetDecrT => 4
    case NetAppendT => 4
    case NetPrependT => 4
    case NetDeleteT => 2
    case NetBackfillDeleteT => 2
  }

  /** Field widths of the fixed part of each struct, in declaration order. */
  function Layout(w: Widths, t: StructType): (r: seq<nat>)
    ensures |r| == FieldCount(t)
  {
    match t
    case NetHeaderT => [1, 1, 2]
    case NetMultipartHeaderT => [1, 1, 2, 4]
    case NetCastimeT => [w.cas, w.timestamp]
    case NetHelloT => seq(HelloMagicSize, _ => 1) + [4]
    case NetIntroduceT => [4, 4]
    case NetBackfillT => [w.timestamp]
    case NetBackfillCompleteT => [w.timestamp]
    case NetBackfillDeleteEverythingT => [4]
    case NetNopT => [w.timestamp]
    case NetGetCasT => [w.cas, w.timestamp, 2]
    case NetSarcT => [w.timestamp, w.cas, w.flags, w.exptime, 2, 4, 1, 1, w.cas]
    case NetBackfillSetT => [w.timestamp, w.flags, w.exptime, w.cas, 2, 4]
    case NetIncrT => [w.timestamp, w.cas, 8, 2]
    case NetDecrT => [w.timestamp, w.cas, 8, 2]
    case NetAppendT => [w.timestamp, w.cas, 2, 4]
    case NetPrependT => [w.timestamp, w.cas, 2, 4]
    case NetDeleteT => [w.timestamp, 2]
    case NetBackfillDeleteT => [2, 2]
  }

  /** Position of the `uint16_t key_size` field, for the structs with a trailing key. */
  function KeySizeIndex(t: StructType): (r: Option<nat>)
    ensures r.Some? ==> forall w :: r.value < |Layout(w, t)| && Layout(w, t)[r.value] == 2
  {
    match t
    case NetGetCasT => Some(2)
    case NetSarcT => Some(4)
    case NetBackfillSetT => Some(4)
    case NetIncrT => Some(3)
    case NetDecrT => Some(3)
    case NetAppendT => Some(2)
    case NetPrependT => Some(2)
    case NetDeleteT => Some(1)
    case NetBackfillDeleteT => Some(1)
    case _ => None
  }

  /** Position of the `uint32_t value_size` field, for the structs with a trailing key and value. */
  function ValueSizeIndex(t: StructType): (r: Option<nat>)
    ensures r.Some? ==> KeySizeIndex(t).Some?
    ensures r.Some? ==> forall w :: r.value < |Layout(w, t)| && Layout(w, t)[r.value] == 4
  {
    match t
    case NetSarcT => Some(5)
    case NetBackfillSetT => Some(5)
    case NetAppendT => Some(3)
    case NetPrependT => Some(3)
    case _ => None
  }

  /** The trailing `key` (the first `key_size` bytes of `keyvalue`); empty for structs without one. */
  function Key(p: NetStruct): seq<Byte>
  {
    match p
    case NetGetCas(_, _, key) => key
    case NetSarc(_, _, _, _, _, _, _, key, _) => key
    case NetBackfillSet(_, _, _, _, key, _) => key
    case NetIncr(_, _, _, key) => key
    case NetDecr(_, _, _, key) => key
    case NetAppend(_, _, key, _) => key
    case NetPrepend(_, _, key, _) => key
    case NetDelete(_, key) => key
    case NetBackfillDelete(_, key) => key
    case _ => []
  }

  /** The value part of `keyvalue` (the `value_size` bytes after the key); empty for other structs. */
  function Value(p: NetStruct): seq<Byte>
  {
    match p
    case NetSarc(_, _, _, _, _, _, _, _, value) => value
    case NetBackfillSet(_, _, _, _, _, value) => value
    case NetAppend(_, _, _, value) => value
    case NetPrepend(_, _, _, value) => value
    case _ => []
  }

  /** The values of the fixed fields, in declaration order. */
  function FixedFields(p: NetStruct): seq<nat>
  {
    match p
    case NetHeader(a, c, n) => [a, c, n]
    case NetMultipartHeader(a, c, n, ident) => [a, c, n, ident]
    case NetCastime(cas, ts) => [cas, ts]
    case NetHello(magic, version) => var m: seq<nat> := magic; m + [version]
    case NetIntroduce(created, other) => [created, other]
    case NetBackfill(ts) => [ts]
    case NetBackfillComplete(ts) => [ts]
    case NetBackfillDeleteEverything(padding) => [padding]
    case NetNop(ts) => [ts]
    case NetGetCas(cas, ts, key) => [cas, ts, |key|]
    case NetSarc(ts, cas, flags, exptime, add, replace, oldCas, key, value) =>
      [ts, cas, flags, exptime, |key|, |value|, add, replace, oldCas]
    case NetBackfillSet(ts, flags, exptime, cas, key, value) =>
      [ts, flags, exptime, cas, |key|, |value|]
    case NetIncr(ts, cas, amount, key) => [ts, cas, amount, |key|]
    case NetDecr(ts, cas, amount, key) => [ts, cas, amount, |key|]
    case NetAppend(ts, cas, key, value) => [ts, cas, |key|, |value|]
    case NetPrepend(ts, cas, key, value) => [ts, cas, |key|, |value|]
    case NetDelete(ts, key) => [ts, |key|]
    case NetBackfillDelete(padding, key) => [padding, |key|]
  }

  /** Every field fits its declared width (this bounds `key_size` and `value_size` too). */
  predicate WellFormed(w: Widths, p: NetStruct)
  {
    Fits(FixedFields(p), Layout(w, TypeOf(p)))
  }

  /** The bytes of a struct: the packed fixed fields, then the key, then the value. */
  function Encode(w: Widths, p: NetStruct): (r: seq<Byte>)
    requires WellFormed(w, p)
    ensures |r| == Size(Layout(w, TypeOf(p))) + |Key(p)| + |Value(p)|
  {
    EncodeFields(FixedFields(p), Layout(w, TypeOf(p))) + Key(p) + Value(p)
  }

  /** Reassembles a struct of type `t` from its fixed fields and trailing regions. */
  function Build(w: Widths, t: StructType, vals: seq<nat>, key: seq<Byte>, value: seq<Byte>): (p: NetStruct)
    requires Fits(vals, Layout(w, t))
    ensures TypeOf(p) == t
  {
    assert |vals| == FieldCount(t);
    match t
    case NetHeaderT => NetHeader(vals[0], vals[1], vals[2])
    case NetMultipartHeaderT => NetMultipartHeader(vals[0], vals[1], vals[2], vals[3])
    case NetCastimeT => NetCastime(vals[0], vals[1])
    case NetHelloT => BuildHello(w, vals)
    case NetIntroduceT => NetIntroduce(vals[0], vals[1])
    case NetBackfillT => NetBackfill(vals[0])
    case NetBackfillCompleteT => NetBackfillComplete(vals[0])
    case NetBackfillDeleteEverythingT => NetBackfillDeleteEverything(vals[0])
    case NetNopT => NetNop(vals[0])
    case NetGetCasT => NetGetCas(vals[0], vals[1], key)
    case NetSarcT => NetSarc(vals[0], vals[1], vals[2], vals[3], vals[6], vals[7], vals[8], key, value)
    case NetBackfillSetT => NetBackfillSet(vals[0], vals[1], vals[2], vals[3], key, value)
    case NetIncrT => NetIncr(vals[0], vals[1], vals[2], key)
    case NetDecrT => NetDecr(vals[0], vals[1], vals[2], key)
    case NetAppendT => NetAppend(vals[0], vals[1], key, value)
    case NetPrependT => NetPrepend(vals[0], vals[1], key, value)
    case NetDeleteT => NetDelete(vals[0], key)
    case NetBackfillDeleteT => NetBackfillDelete(vals[0], key)
  }

  /** The hello message from its sixteen one-byte magic fields and its version. */
  function BuildHello(w: Widths, vals: seq<nat>): (p: NetStruct)
    requires Fits(vals, Layout(w, NetHelloT))
    ensures p.NetHello? && FixedFields(p) == vals
  {
    assert forall i :: 0 <= i < HelloMagicSize ==> Layout(w, NetHelloT)[i] == 1;
    assert Pow256(1) == 0x100;
    var p := NetHello(seq(HelloMagicSize, i requires 0 <= i < HelloMagicSize => vals[i] as Byte), vals[HelloMagicSize]);
    assert FixedFields(p) == vals;
    p
  }

  datatype DecodeError =
    | Truncated      // fewer bytes than the fixed part
    | SizeMismatch   // the trailing bytes are not exactly key_size + value_size long

  /** The size fields recorded in decoded fixed fields (0 where the struct has none). */
  function RecordedSize(vals: seq<nat>, index: Option<nat>): nat
  {
    match index
    case Some(i) => if i < |vals| then vals[i] else 0
    case None => 0
  }

  /** A message cut into its fixed fields and its trailing key and value. */
  datatype Parts = Parts(fields: seq<nat>, key: seq<Byte>, value: seq<Byte>)

  /**
    Cuts a message into its parts: the fixed fields of `layout`, then as many
    key and value bytes as the size fields at `keyIndex` and `valueIndex`
    record, with nothing left over.
  */
  function Split(layout: seq<nat>, keyIndex: Option<nat>, valueIndex: Option<nat>, s: seq<Byte>): (r: Result<Parts, DecodeError>)
    ensures r.Success? ==> Fits(r.value.fields, layout)
    ensures r.Success? ==> |r.value.key| == RecordedSize(r.value.fields, keyIndex) &&
                           |r.value.value| == RecordedSize(r.value.fields, valueIndex)
    ensures r == Failure(Truncated) <==> |s| < Size(layout)
  {
    var n := Size(layout);
    if |s| < n then Failure(Truncated)
    else
      var vals := DecodeFields(s[..n], layout);
      var keySize := RecordedSize(vals, keyIndex);
      var valueSize := RecordedSize(vals, valueIndex);
      if |s| != n + keySize + valueSize then Failure(SizeMismatch)
      else Success(Parts(vals, s[n..n + keySize], s[n + keySize..]))
  }

  /** Reads a complete struct of type `t` from exactly its bytes. */
  function Decode(w: Widths, t: StructType, s: seq<Byte>): (r: Result<NetStruct, DecodeError>)
    ensures r.Success? ==> TypeOf(r.value) == t
  {
    match Split(Layout(w, t), KeySizeIndex(t), ValueSizeIndex(t), s)
    case Failure(e) => Failure(e)
    case Success(parts) => Success(Build(w, t, parts.fields, parts.key, parts.value))
  }

  // ---------------------------------------------------------------------
  // Round trips
  // ---------------------------------------------------------------------

  /** The size fields of a struct hold the lengths of its key and value. */
  lemma SizeFieldsRecordLengths(p: NetStruct)
    ensures RecordedSize(FixedFields(p), KeySizeIndex(TypeOf(p))) == |Key(p)|
    ensures RecordedSize(FixedFields(p), ValueSizeIndex(TypeOf(p))) == |Value(p)|
  {
  }

  lemma BuildFixedFields(w: Widths, p: NetStruct)
    requires WellFormed(w, p)
    ensures Build(w, TypeOf(p), FixedFields(p), Key(p), Value(p)) == p
  {
    match p
    case NetHello(_, _) => BuildHelloFixedFields(w, p);
    case NetHeader(_, _, _) =>
    case NetMultipartHeader(_, _, _, _) =>
    case NetCastime(_, _) =>
    case NetIntroduce(_, _) =>
    case NetBackfill(_) =>
    case NetBackfillComplete(_) =>
    case NetBackfillDeleteEverything(_) =>
    case NetNop(_) =>
    case NetGetCas(_, _, _) =>
    case NetSarc(_, _, _, _, _, _, _, _, _) =>
    case NetBackfillSet(_, _, _, _, _, _) =>
    case NetIncr(_, _, _, _) =>
    case NetDecr(_, _, _, _) =>
    case NetAppend(_, _, _, _) =>
    case NetPrepend(_, _, _, _) =>
    case NetDelete(_, _) =>
    case NetBackfillDelete(_, _) =>
  }

  lemma BuildHelloFixedFields(w: Widths, p: NetStruct)
    requires p.NetHello? && WellFormed(w, p)
    ensures Build(w, NetHelloT, FixedFields(p), Key(p), Value(p)) == p
  {
    var q := Build(w, NetHelloT, FixedFields(p), Key(p), Value(p));
    assert q.helloMagic == p.helloMagic;
  }

  lemma FixedFieldsOfBuild(w: Widths, t: StructType, vals: seq<nat>, key: seq<Byte>, value: seq<Byte>)
    requires Fits(vals, Layout(w, t))
    requires |key| == RecordedSize(vals, KeySizeIndex(t)) && |value| == RecordedSize(vals, ValueSizeIndex(t))
    ensures var p := Build(w, t, vals, key, value);
      FixedFields(p) == vals && Key(p) == key && Value(p) == value
  {
    var p := Build(w, t, vals, key, value);
    match t
    case NetHelloT =>
    case NetHeaderT =>
    case NetMultipartHeaderT =>
    case NetCastimeT =>
    case NetIntroduceT =>
    case NetBackfillT =>
    case NetBackfillCompleteT =>
    case NetBackfillDeleteEverythingT =>
    case NetNopT =>
    case NetGetCasT =>
    case NetSarcT =>
    case NetBackfillSetT =>
    case NetIncrT =>
    case NetDecrT =>
    case NetAppendT =>
    case NetPrependT =>
    case NetDeleteT =>
    case NetBackfillDeleteT =>
  }

  /** Decoding the bytes of a well-formed struct gives it back. */
  lemma EncodeThenDecode(w: Widths, p: NetStruct)
    requires WellFormed(w, p)
    ensures Decode(w, TypeOf(p), Encode(w, p)) == Success(p)
  {
    var t := TypeOf(p);
    SizeFieldsRecordLengths(p);
    JoinThenSplit(FixedFields(p), Layout(w, t), KeySizeIndex(t), ValueSizeIndex(t), Key(p), Value(p));
    BuildFixedFields(w, p);
  }

  /** Whatever decodes is well-formed and is exactly the encoding of what it decodes to. */
  lemma DecodeThenEncode(w: Widths, t: StructType, s: seq<Byte>)
    requires Decode(w, t, s).Success?
    ensures var p := Decode(w, t, s).value;
      TypeOf(p) == t && WellFormed(w, p) && Encode(w, p) == s
  {
    var layout := Layout(w, t);
    var parts := Split(layout, KeySizeIndex(t), ValueSizeIndex(t), s).value;
    var p := Build(w, t, parts.fields, parts.key, parts.value);
    assert Decode(w, t, s).value == p;
    assert FixedFields(p) == parts.fields && Key(p) == parts.key && Value(p) == parts.value by {
      FixedFieldsOfBuild(w, t, parts.fields, parts.key, parts.value);
    }
    SplitThenJoin(layout, KeySizeIndex(t), ValueSizeIndex(t), s);
  }

  /** Fixed fields followed by key and value bytes of the recorded lengths split back into those parts. */
  lemma JoinThenSplit(vals: seq<nat>, layout: seq<nat>, keyIndex: Option<nat>, valueIndex: Option<nat>,
                      key: seq<Byte>, value: seq<Byte>)
    requires Fits(vals, layout)
    requires |key| == RecordedSize(vals, keyIndex) && |value| == RecordedSize(vals, valueIndex)
    ensures Split(layout, keyIndex, valueIndex, EncodeFields(vals, layout) + key + value) == Success(Parts(vals, key, value))
  {
    var s, n := EncodeFields(vals, layout) + key + value, Size(layout);
    assert s[..n] == EncodeFields(vals, layout);
    DecodeEncodeFields(vals, layout);
    assert s[n..n + |key|] == key && s[n + |key|..] == value;
  }

  /** A message that splits is the encoding of its fixed fields followed by its key and value. */
  lemma SplitThenJoin(layout: seq<nat>, keyIndex: Option<nat>, valueIndex: Option<nat>, s: seq<Byte>)
    requires Split(layout, keyIndex, valueIndex, s).Success?
    ensures var parts := Split(layout, keyIndex, valueIndex, s).value;
      EncodeFields(parts.fields, layout) + parts.key + parts.value == s
  {
    var n := Size(layout);
    var keySize := RecordedSize(DecodeFields(s[..n], layout), keyIndex);
    EncodeDecodeFields(s[..n], layout);
    SplitMessage(s, n, keySize);
  }

  /** A message is its fixed part, then its key, then its value. */
  lemma SplitMessage(s: seq<Byte>, n: nat, keySize: nat)
    requires n + keySize <= |s|
    ensures s == s[..n] + s[n..n + keySize] + s[n + keySize..]
  {
    assert s[n..] == s[n..n + keySize] + s[n + keySize..];
    assert s == s[..n] + s[n..];
  }

  // ---------------------------------------------------------------------
  // Sizes and offsets
  // ---------------------------------------------------------------------

  /**
    `sizeof` of each packed struct, written out from its declaration as the
    sum of its members' sizes: the reference the layouts are checked against.
  */
  function Sizeof(w: Widths, t: StructType): nat
  {
    match t
    case NetHeaderT => 4
    case NetMultipartHeaderT => 8
    case NetCastimeT => w.cas + w.timestamp
    case NetHelloT => 20
    case NetIntroduceT => 8
    case NetBackfillT => w.timestamp
    case NetBackfillCompleteT => w.timestamp
    case NetBackfillDeleteEverythingT => 4
    case NetNopT => w.timestamp
    case NetGetCasT => w.cas + w.timestamp + 2
    case NetSarcT => w.timestamp + 2 * w.cas + w.flags + w.exptime + 8
    case NetBackfillSetT => w.timestamp + w.flags + w.exptime + w.cas + 6
    case NetIncrT => w.timestamp + w.cas + 10
    case NetDecrT => w.timestamp + w.cas + 10
    case NetAppendT => w.timestamp + w.cas + 6
    case NetPrependT => w.timestamp + w.cas + 6
    case NetDeleteT => w.timestamp + 2
    case NetBackfillDeleteT => 4
  }

  lemma {:induction false} SizeOfOnes(n: nat)
    ensures Size(seq(n, _ => 1)) == n
  {
    if n > 0 {
      assert seq(n, _ => 1)[1..] == seq(n - 1, _ => 1);
      SizeOfOnes(n - 1);
    }
  }

  /**
    `Size` without recursion, for layouts of at most nine fields (the longest
    struct, `net_sarc_t`, has nine): each struct's size becomes one sum.
  */
  function UnrolledSum(s: seq<nat>): nat
  {
    (if 0 < |s| then s[0] else 0) + (if 1 < |s| then s[1] else 0) + (if 2 < |s| then s[2] else 0) +
    (if 3 < |s| then s[3] else 0) + (if 4 < |s| then s[4] else 0) + (if 5 < |s| then s[5] else 0) +
    (if 6 < |s| then s[6] else 0) + (if 7 < |s| then s[7] else 0) + (if 8 < |s| then s[8] else 0)
  }

  lemma {:induction false} SizeIsUnrolledSum(layout: seq<nat>)
    requires |layout| <= 9
    ensures Size(layout) == UnrolledSum(layout)
  {
    if layout != [] {
      SizeIsUnrolledSum(layout[1..]);
      assert UnrolledSum(layout) == layout[0] + UnrolledSum(layout[1..]);
    }
  }

  /**
    The packed size of every layout agrees with the `sizeof` written out from
    the declarations. This checks the widths in `Layout` against a second,
    independent reading of the structs; that fields sit back to back with
    no gap is `FieldAt` and `OffsetNext`.
  */
  lemma SizeofMatchesLayout(w: Widths, t: StructType)
    ensures Size(Layout(w, t)) == Sizeof(w, t)
  {
    match t
    case NetHelloT =>
      SizeOfOnes(HelloMagicSize);
      SizeAppend(seq(HelloMagicSize, _ => 1), [4]);
    case NetHeaderT => SizeIsUnrolledSum(Layout(w, t));
    case NetMultipartHeaderT => SizeIsUnrolledSum(Layout(w, t));
    case NetCastimeT => SizeIsUnrolledSum(Layout(w, t));
    case NetIntroduceT => SizeIsUnrolledSum(Layout(w, t));
    case NetBackfillT => SizeIsUnrolledSum(Layout(w, t));
    case NetBackfillCompleteT => SizeIsUnrolledSum(Layout(w, t));
    case NetBackfillDeleteEverythingT => SizeIsUnrolledSum(Layout(w, t));
    case NetNopT => SizeIsUnrolledSum(Layout(w, t));
    case NetGetCasT => SizeIsUnrolledSum(Layout(w, t));
    case NetSarcT => SizeIsUnrolledSum(Layout(w, t));
    case NetBackfillSetT => SizeIsUnrolledSum(Layout(w, t));
    case NetIncrT => SizeIsUnrolledSum(Layout(w, t));
    case NetDecrT => SizeIsUnrolledSum(Layout(w, t));
    case NetAppendT => SizeIsUnrolledSum(Layout(w, t));
    case NetPrependT => SizeIsUnrolledSum(Layout(w, t));
    case NetDeleteT => SizeIsUnrolledSum(Layout(w, t));
    case NetBackfillDeleteT => SizeIsUnrolledSum(Layout(w, t));
  }

  /** `net_header_t`: aspect at byte 0, msgcode at byte 1, msgsize at bytes 2..3. */
  lemma HeaderBytes(w: Widths, aspect: nat, code: nat, size: nat)
    requires aspect < 0x100 && code < 0x100 && size < 0x1_0000
    ensures WellFormed(w, NetHeader(aspect, code, size))
    ensures Encode(w, NetHeader(aspect, code, size)) == [aspect, code, size % 0x100, size / 0x100]
  {
    var p := NetHeader(aspect, code, size);
    HeaderFieldBytes(aspect, code, size);
    assert Encode(w, p) == EncodeFields([aspect, code, size], [1, 1, 2]) + [] + [];
  }

  lemma HeaderFieldBytes(aspect: nat, code: nat, size: nat)
    requires aspect < 0x100 && code < 0x100 && size < 0x1_0000
    ensures Fits([aspect, code, size], [1, 1, 2])
    ensures EncodeFields([aspect, code, size], [1, 1, 2]) == [aspect, code, size % 0x100, size / 0x100]
  {
    assert Pow256(1) == 0x100;
    var tail := [size % 0x100, size / 0x100];
    assert EncodeFields([size], [2]) == tail by {
      EncodeUint16(size);
      EncodeOne(size, 2);
    }
    assert Fits([code, size], [1, 2]) && EncodeFields([code, size], [1, 2]) == [code] + tail by {
      EncodeOne(code, 1);
      assert EncodeUint(code, 1) == [code];
      EncodeFieldsAppend([code], [1], [size], [2]);
      assert [code] + [size] == [code, size] && [1] + [2] == [1, 2];
    }
    assert EncodeFields([aspect, code, size], [1, 1, 2]) == [aspect] + ([code] + tail) by {
      EncodeOne(aspect, 1);
      assert EncodeUint(aspect, 1) == [aspect];
      EncodeFieldsAppend([aspect], [1], [code, size], [1, 2]);
      assert [aspect] + [code, size] == [aspect, code, size] && [1] + [1, 2] == [1, 1, 2];
    }
  }

  /** `net_multipart_header_t` is `net_header_t` followed by the 4-byte `ident`. */
  lemma MultipartHeaderExtendsHeader(w: Widths, aspect: nat, code: nat, size: nat, ident: nat)
    requires aspect < 0x100 && code < 0x100 && size < 0x1_0000 && ident < 0x1_0000_0000
    ensures WellFormed(w, NetMultipartHeader(aspect, code, size, ident))
    ensures Encode(w, NetMultipartHeader(aspect, code, size, ident))
            == Encode(w, NetHeader(aspect, code, size)) + EncodeUint(ident, 4)
  {
    HeaderBytes(w, aspect, code, size);
    assert Pow256(4) == 0x1_0000_0000;
    EncodeFieldsAppend([aspect, code, size], [1, 1, 2], [ident], [4]);
    assert EncodeFields([ident], [4]) == EncodeUint(ident, 4);
    assert [aspect, code, size] + [ident] == [aspect, code, size, ident];
    assert [1, 1, 2] + [4] == Layout(w, NetMultipartHeaderT);
  }

  /** `net_hello_t`: the 16 magic bytes, then the 4-byte protocol version. */
  lemma HelloBytes(w: Widths, magic: seq<Byte>, version: nat)
    requires |magic| == HelloMagicSize && version < 0x1_0000_0000
    ensures WellFormed(w, NetHello(magic, version))
    ensures Encode(w, NetHello(magic, version)) == magic + EncodeUint(version, 4)
  {
    var ones := seq(HelloMagicSize, _ => 1);
    EncodeByteFields(magic, ones);
    assert Pow256(4) == 0x1_0000_0000;
    EncodeFieldsAppend(magic, ones, [version], [4]);
    assert EncodeFields([version], [4]) == EncodeUint(version, 4);
  }

  /** `net_introduce_t`: the creation timestamp, then `other_id`, 4 bytes each. */
  lemma IntroduceBytes(w: Widths, created: nat, other: nat)
    requires created < 0x1_0000_0000 && other < 0x1_0000_0000
    ensures WellFormed(w, NetIntroduce(created, other))
    ensures Encode(w, NetIntroduce(created, other)) == EncodeUint(created, 4) + EncodeUint(other, 4)
  {
    var p := NetIntroduce(created, other);
    assert Pow256(4) == 0x1_0000_0000;
    assert Fits([created, other], [4, 4]) &&
           EncodeFields([created, other], [4, 4]) == EncodeUint(created, 4) + EncodeUint(other, 4) by {
      EncodeOne(created, 4);
      EncodeOne(other, 4);
      EncodeFieldsAppend([created], [4], [other], [4]);
      assert [created] + [other] == [created, other] && [4] + [4] == [4, 4];
    }
    assert FixedFields(p) == [created, other] && Layout(w, TypeOf(p)) == [4, 4];
  }

  /** The structs whose only trailing region is `key[]`. */
  predicate KeyOnly(t: StructType)
  {
    t in {NetGetCasT, NetIncrT, NetDecrT, NetDeleteT, NetBackfillDeleteT}
  }

  /**
    In the key-only structs `key_size` is the last fixed field and the key
    starts right after it: the encoding is the fixed part, then exactly
    `key_size` key bytes.
  */
  lemma KeyFollowsKeySize(w: Widths, p: NetStruct)
    requires WellFormed(w, p) && KeyOnly(TypeOf(p))
    ensures var layout := Layout(w, TypeOf(p));
      var i := |layout| - 1;
      var e := Encode(w, p);
      KeySizeIndex(TypeOf(p)) == Some(i) && ValueSizeIndex(TypeOf(p)) == None &&
      Offset(layout, i) + 2 == Size(layout) &&
      e[Offset(layout, i)..Size(layout)] == EncodeUint(|Key(p)|, 2) &&
      e[Size(layout)..] == Key(p) && |e| == Size(layout) + |Key(p)|
  {
    var layout := Layout(w, TypeOf(p));
    var vals := FixedFields(p);
    KeyOnlyShape(w, p);
    var i := |layout| - 1;
    assert layout[i] == 2 && vals[i] == |Key(p)|;
    assert Encode(w, p) == EncodeFields(vals, layout) + Key(p) + [];
    LastFieldThenKey(vals, layout, Key(p));
  }

  /** The last fixed field ends the fixed part, and the trailing bytes follow it directly. */
  lemma LastFieldThenKey(vals: seq<nat>, layout: seq<nat>, key: seq<Byte>)
    requires Fits(vals, layout) && |layout| >= 1
    ensures var i, n := |layout| - 1, Size(layout);
      var e := EncodeFields(vals, layout) + key + [];
      Offset(layout, i) + layout[i] == n &&
      e[Offset(layout, i)..n] == EncodeUint(vals[i], layout[i]) &&
      e[n..] == key && |e| == n + |key|
  {
    var i := |layout| - 1;
    var n, e := Size(layout), EncodeFields(vals, layout) + key + [];
    FieldInMessage(vals, layout, key, [], i);
    assert Offset(layout, i) + layout[i] == n by {
      assert layout[..i + 1] == layout;
      OffsetNext(layout, i);
    }
    assert |e| == n + |key| && e[n..] == e[n..n + |key|];
  }

  /** Where the key-only structs keep `key_size`, and that they have no value. */
  lemma KeyOnlyShape(w: Widths, p: NetStruct)
    requires KeyOnly(TypeOf(p))
    ensures var layout := Layout(w, TypeOf(p));
      |layout| >= 1 && |FixedFields(p)| == |layout| &&
      KeySizeIndex(TypeOf(p)) == Some(|layout| - 1) && ValueSizeIndex(TypeOf(p)) == None &&
      FixedFields(p)[|layout| - 1] == |Key(p)| && Value(p) == []
  {
    match p
    case NetGetCas(_, _, _) =>
    case NetIncr(_, _, _, _) =>
    case NetDecr(_, _, _, _) =>
    case NetDelete(_, _) =>
    case NetBackfillDelete(_, _) =>
  }

  /**
    In the key-and-value structs the first `key_size` bytes of `keyvalue` are
    the key and the next `value_size` bytes are the value; both sizes are
    recorded at their field offsets.
  */
  lemma KeyValueRegions(w: Widths, p: NetStruct)
    requires WellFormed(w, p) && ValueSizeIndex(TypeOf(p)).Some?
    ensures var layout := Layout(w, TypeOf(p));
      var n := Size(layout);
      var k := KeySizeIndex(TypeOf(p)).value;
      var v := ValueSizeIndex(TypeOf(p)).value;
      var e := Encode(w, p);
      Offset(layout, k) + 2 <= n && Offset(layout, v) + 4 <= n &&
      e[Offset(layout, k)..Offset(layout, k) + 2] == EncodeUint(|Key(p)|, 2) &&
      e[Offset(layout, v)..Offset(layout, v) + 4] == EncodeUint(|Value(p)|, 4) &&
      e[n..n + |Key(p)|] == Key(p) && e[n + |Key(p)|..] == Value(p)
  {
    var t := TypeOf(p);
    var layout := Layout(w, t);
    var k, v := KeySizeIndex(t).value, ValueSizeIndex(t).value;
    var vals := FixedFields(p);
    SizeFieldsRecordLengths(p);
    assert vals[k] == |Key(p)| && vals[v] == |Value(p)|;
    assert Encode(w, p) == EncodeFields(vals, layout) + Key(p) + Value(p);
    FieldInMessage(vals, layout, Key(p), Value(p), k);
    FieldInMessage(vals, layout, Key(p), Value(p), v);
  }

  /**
    In fixed fields followed by a key and a value, field `i` sits at its
    offset and the key and value follow the fixed part in turn.
  */
  lemma FieldInMessage(vals: seq<nat>, layout: seq<nat>, key: seq<Byte>, value: seq<Byte>, i: nat)
    requires Fits(vals, layout) && i < |layout|
    ensures var n := Size(layout);
      var e := EncodeFields(vals, layout) + key + value;
      Offset(layout, i) + layout[i] <= n &&
      e[Offset(layout, i)..Offset(layout, i) + layout[i]] == EncodeUint(vals[i], layout[i]) &&
      e[n..n + |key|] == key && e[n + |key|..] == value
  {
    FieldAt(vals, layout, i);
  }

  /** `net_incr_t` and `net_decr_t` are laid out identically: the same bytes read as either. */
  lemma IncrDecrIdentical(w: Widths, ts: nat, cas: nat, amount: nat, key: seq<Byte>)
    requires WellFormed(w, NetIncr(ts, cas, amount, key))
    ensures Layout(w, NetIncrT) == Layout(w, NetDecrT)
    ensures WellFormed(w, NetDecr(ts, cas, amount, key))
    ensures Encode(w, NetIncr(ts, cas, amount, key)) == Encode(w, NetDecr(ts, cas, amount, key))
    ensures Decode(w, NetDecrT, Encode(w, NetIncr(ts, cas, amount, key))) == Success(NetDecr(ts, cas, amount, key))
  {
    var incr, decr := NetIncr(ts, cas, amount, key), NetDecr(ts, cas, amount, key);
    assert FixedFields(incr) == FixedFields(decr) && Key(incr) == Key(decr) && Value(incr) == Value(decr);
    assert WellFormed(w, decr);
    assert Encode(w, incr) == Encode(w, decr);
    EncodeThenDecode(w, decr);
  }

  /**
    The 4-byte payloads of `net_backfill_delete_everything_t` and the 4-byte
    fixed part of `net_backfill_delete_t` make header plus payload at least
    `sizeof(net_multipart_header_t)`.
  */
  lemma PaddedPayloadsFillMultipartHeader(w: Widths, h: NetStruct, p: NetStruct)
    requires h.NetHeader? && WellFormed(w, h)
    requires (p.NetBackfillDeleteEverything? || p.NetBackfillDelete?) && WellFormed(w, p)
    ensures |Encode(w, h) + Encode(w, p)| >= Size(Layout(w, NetMultipartHeaderT))
  {
    SizeofMatchesLayout(w, NetHeaderT);
    SizeofMatchesLayout(w, NetMultipartHeaderT);
    assert |Encode(w, h)| >= 4;
    if p.NetBackfillDeleteEverything? {
      SizeofMatchesLayout(w, NetBackfillDeleteEverythingT);
    } else {
      SizeofMatchesLayout(w, NetBackfillDeleteT);
    }
    assert |Encode(w, p)| >= 4;
  }

  /**
    `net_incr_t` field by field: the 8-byte amount starts right after the
    timestamp and the proposed cas, the 2-byte key size right after the
    amount, and the key right after that.
  */
  lemma IncrOffsets(w: Widths)
    ensures var layout := Layout(w, NetIncrT);
      var at := w.timestamp + w.cas;
      |layout| == 4 && layout[2] == 8 && layout[3] == 2 &&
      Offset(layout, 2) == at && Offset(layout, 3) == at + 8 && Size(layout) == at + 10
  {
    var layout := Layout(w, NetIncrT);
    assert layout[..2] == [w.timestamp, w.cas] && layout[..3] == [w.timestamp, w.cas, 8];
    SizeIsUnrolledSum(layout[..2]);
    SizeIsUnrolledSum(layout[..3]);
    SizeIsUnrolledSum(layout);
  }
}

=== FILE: options.dfy ===
/** Optional values and results with an error. `None` stands for a NULL pointer or an absent value. */
module Options {
  datatype Option<+T> = None | Some(value: T)

  datatype Result<+T, +E> = Success(value: T) | Failure(error: E)
}

=== FILE: packed_fields.dfy ===
/**
  Packed field lists: a run of fixed-width unsigned fields laid out one after
  another with no padding, as `__attribute__((__packed__))` lays out a struct.
  A layout is the list of the fields' widths in bytes; offsets are computed
  arithmetically from it.
*/
module PackedFields {
  import opened LittleEndian

  /** Total width of a layout: the `sizeof` of the packed struct. */
  function Size(widths: seq<nat>): nat
  {
    if widths == [] then 0 else widths[0] + Size(widths[1..])
  }

  /** Byte offset of field `i`: the widths of the fields before it, with no gap. */
  function Offset(widths: seq<nat>, i: nat): nat
    requires i <= |widths|
  {
    Size(widths[..i])
  }

  /** Every value fits in its field. */
  predicate Fits(vals: seq<nat>, widths: seq<nat>)
  {
    |vals| == |widths| && forall i :: 0 <= i < |vals| ==> vals[i] < Pow256(widths[i])
  }

  function EncodeFields(vals: seq<nat>, widths: seq<nat>): (r: seq<Byte>)
    requires Fits(vals, widths)
    ensures |r| == Size(widths)
  {
    if widths == [] then []
    else
      FitsTail(vals, widths);
      EncodeUint(vals[0], widths[0]) + EncodeFields(vals[1..], widths[1..])
  }

  function DecodeFields(s: seq<Byte>, widths: seq<nat>): (vals: seq<nat>)
    requires |s| == Size(widths)
    ensures Fits(vals, widths)
  {
    if widths == [] then []
    else
      var head := DecodeUint(s[..widths[0]]);
      var tail := DecodeFields(s[widths[0]..], widths[1..]);
      assert forall i :: 1 <= i < |widths| ==> ([head] + tail)[i] == tail[i - 1];
      [head] + tail
  }

  lemma {:induction false} SizeAppend(a: seq<nat>, b: seq<nat>)
    ensures Size(a + b) == Size(a) + Size(b)
  {
    if a == [] {
      assert a + b == b;
    } else {
      assert (a + b)[1..] == a[1..] + b;
      SizeAppend(a[1..], b);
    }
  }

  /** Decoding an encoded field list gives back the values. */
  lemma {:induction false} DecodeEncodeFields(vals: seq<nat>, widths: seq<nat>)
    requires Fits(vals, widths)
    ensures DecodeFields(EncodeFields(vals, widths), widths) == vals
  {
    if widths != [] {
      var s := EncodeFields(vals, widths);
      var head := EncodeUint(vals[0], widths[0]);
      FitsTail(vals, widths);
      var tail := EncodeFields(vals[1..], widths[1..]);
      assert s[..widths[0]] == head && s[widths[0]..] == tail;
      DecodeEncodeUint(vals[0], widths[0]);
      DecodeEncodeFields(vals[1..], widths[1..]);
      assert [vals[0]] + vals[1..] == vals;
    }
  }

  /** Every byte string of the layout's size is the encoding of the fields it decodes to. */
  lemma {:induction false} EncodeDecodeFields(s: seq<Byte>, widths: seq<nat>)
    requires |s| == Size(widths)
    ensures EncodeFields(DecodeFields(s, widths), widths) == s
  {
    if widths != [] {
      var vals := DecodeFields(s, widths);
      var front, back := s[..widths[0]], s[widths[0]..];
      var tail := DecodeFields(back, widths[1..]);
      assert vals == [DecodeUint(front)] + tail;
      assert vals[0] == DecodeUint(front) && vals[1..] == tail;
      FitsTail(vals, widths);
      assert EncodeFields(vals, widths) == EncodeUint(vals[0], widths[0]) + EncodeFields(tail, widths[1..]);
      assert EncodeUint(vals[0], widths[0]) == front by {
        EncodeDecodeUint(front);
      }
      assert EncodeFields(tail, widths[1..]) == back by {
        EncodeDecodeFields(back, widths[1..]);
      }
      assert front + back == s;
    }
  }

  /** Field `i` occupies bytes Offset(i) .. Offset(i) + widths[i] of the encoding. */
  lemma {:induction false} FieldAt(vals: seq<nat>, widths: seq<nat>, i: nat)
    requires Fits(vals, widths) && i < |widths|
    ensures Offset(widths, i) + widths[i] <= Size(widths)
    ensures Offset(widths, i + 1) == Offset(widths, i) + widths[i]
    ensures EncodeFields(vals, widths)[Offset(widths, i)..Offset(widths, i) + widths[i]]
            == EncodeUint(vals[i], widths[i])
  {
    OffsetNext(widths, i);
    var head := EncodeUint(vals[0], widths[0]);
    FitsTail(vals, widths);
    var rest := EncodeFields(vals[1..], widths[1..]);
    assert EncodeFields(vals, widths) == head + rest;
    if i == 0 {
      assert Offset(widths, 0) == 0 by {
        assert widths[..0] == [];
      }
      assert (head + rest)[..|head|] == head;
    } else {
      var from := Offset(widths[1..], i - 1);
      assert rest[from..from + widths[i]] == EncodeUint(vals[i], widths[i]) by {
        FieldAt(vals[1..], widths[1..], i - 1);
        assert vals[1..][i - 1] == vals[i] && widths[1..][i - 1] == widths[i];
      }
      OffsetTail(widths, i);
      ShiftedSlice(head, rest, from, widths[i]);
    }
  }

  /** Each offset is the one before it plus that field's width, and the last field ends within the size. */
  lemma OffsetNext(widths: seq<nat>, i: nat)
    requires i < |widths|
    ensures Offset(widths, i + 1) == Offset(widths, i) + widths[i]
    ensures Offset(widths, i) + widths[i] <= Size(widths)
  {
    TakeOneMore(widths, i);
    SizeAppend(widths[..i], [widths[i]]);
    SizeOfOne(widths[i]);
    TakeDrop(widths, i + 1);
    SizeAppend(widths[..i + 1], widths[i + 1..]);
  }

  lemma TakeOneMore(s: seq<nat>, i: nat)
    requires i < |s|
    ensures s[..i + 1] == s[..i] + [s[i]]
  {
  }

  lemma TakeDrop(s: seq<nat>, i: nat)
    requires i <= |s|
    ensures s == s[..i] + s[i..]
  {
  }

  lemma SizeOfOne(width: nat)
    ensures Size([width]) == width
  {
    assert [width][1..] == [];
  }

  /** Past the first field, offsets are those of the remaining fields shifted by its width. */
  lemma OffsetTail(widths: seq<nat>, i: nat)
    requires 0 < i <= |widths|
    ensures Offset(widths, i) == widths[0] + Offset(widths[1..], i - 1)
  {
    assert widths[..i][1..] == widths[1..][..i - 1];
  }

  lemma ShiftedSlice(head: seq<Byte>, rest: seq<Byte>, from: nat, len: nat)
    requires from + len <= |rest|
    ensures (head + rest)[|head| + from..|head| + from + len] == rest[from..from + len]
  {
  }

  lemma FitsTail(vals: seq<nat>, widths: seq<nat>)
    requires Fits(vals, widths) && widths != []
    ensures Fits(vals[1..], widths[1..])
  {
    forall i | 0 <= i < |vals| - 1 ensures vals[1..][i] < Pow256(widths[1..][i]) {
      assert vals[1..][i] == vals[i + 1];
    }
  }

  lemma FitsAppend(va: seq<nat>, wa: seq<nat>, vb: seq<nat>, wb: seq<nat>)
    requires Fits(va, wa) && Fits(vb, wb)
    ensures Fits(va + vb, wa + wb)
  {
    forall i | 0 <= i < |va| + |vb| ensures (va + vb)[i] < Pow256((wa + wb)[i]) {
      if i >= |va| { assert (va + vb)[i] == vb[i - |va|] && (wa + wb)[i] == wb[i - |wa|]; }
    }
  }

  /** Concatenating two layouts concatenates their encodings. */
  lemma {:induction false} EncodeFieldsAppend(va: seq<nat>, wa: seq<nat>, vb: seq<nat>, wb: seq<nat>)
    requires Fits(va, wa) && Fits(vb, wb)
    ensures Fits(va + vb, wa + wb)
    ensures EncodeFields(va + vb, wa + wb) == EncodeFields(va, wa) + EncodeFields(vb, wb)
  {
    FitsAppend(va, wa, vb, wb);
    if wa == [] {
      assert va + vb == vb && wa + wb == wb;
    } else {
      var head := EncodeUint(va[0], wa[0]);
      FitsTail(va, wa);
      var restA, encB := EncodeFields(va[1..], wa[1..]), EncodeFields(vb, wb);
      assert EncodeFields(va, wa) == head + restA by {
        EncodeFieldsCons(va, wa);
      }
      assert EncodeFields(va + vb, wa + wb) == head + (restA + encB) by {
        ConsAppend(va, vb);
        ConsAppend(wa, wb);
        EncodeFieldsCons(va + vb, wa + wb);
        EncodeFieldsAppend(va[1..], wa[1..], vb, wb);
      }
      AppendAssoc(head, restA, encB);
    }
  }

  /** A non-empty field list encodes as its first field followed by the rest. */
  lemma EncodeFieldsCons(vals: seq<nat>, widths: seq<nat>)
    requires Fits(vals, widths) && widths != []
    ensures Fits(vals[1..], widths[1..])
    ensures EncodeFields(vals, widths) == EncodeUint(vals[0], widths[0]) + EncodeFields(vals[1..], widths[1..])
  {
    FitsTail(vals, widths);
  }

  lemma ConsAppend<T>(a: seq<T>, b: seq<T>)
    requires a != []
    ensures (a + b)[0] == a[0] && (a + b)[1..] == a[1..] + b
  {
  }

  lemma AppendAssoc<T>(a: seq<T>, b: seq<T>, c: seq<T>)
    ensures a + (b + c) == (a + b) + c
  {
  }

  /** A single field encodes as that field alone. */
  lemma EncodeOne(v: nat, width: nat)
    requires v < Pow256(width)
    ensures Fits([v], [width]) && EncodeFields([v], [width]) == EncodeUint(v, width)
  {
    assert EncodeFields([v], [width]) == EncodeUint(v, width) + EncodeFields([], []);
  }

  /** A run of one-byte fields encodes to the bytes themselves. */
  lemma {:induction false} EncodeByteFields(b: seq<Byte>, widths: seq<nat>)
    requires |widths| == |b| && forall i :: 0 <= i < |b| ==> widths[i] == 1
    ensures Fits(b, widths)
    ensures EncodeFields(b, widths) == b
  {
    assert Pow256(1) == 0x100;
    if b != [] {
      EncodeByteFields(b[1..], widths[1..]);
      assert EncodeUint(b[0], 1) == [b[0]];
      assert [b[0]] + b[1..] == b;
    }
  }
}
